=== FILE: README.md ===
# Location API service layer in Dafny

This project models the service layer of a small location CRUD API. The API
stores named places (name, city, state and country) together with coordinates
found by a geocoding provider. It serves five endpoints:

- `GET /locations` lists the records page by page, with an optional
  `maxLocations` limit and a `continuationToken` cursor.
- `POST /locations` looks up the coordinates and creates the record under a
  freshly generated id.
- `GET /locations/{id}` reads one record.
- `PUT /locations/{id}` looks up the coordinates again and replaces the record.
- `DELETE /locations/{id}` removes the record.

The model replaces the exceptions with tagged outcomes and the key-value table
with a map plus a scan order. Each handler is a pure function from a request
and a table to a response and a new table.

Modules (one per file):

- `Outcomes` (`outcomes.dfy`): `Option`, `Result`, and the faults that stand
  for the service's exceptions, with their messages.
- `KeyOrder` (`keyorder.dfy`): the scan order, which is lexicographic order on
  ids. It provides sorted insertion and removal, and the position at which a
  scan resumes after a cursor.
- `Locations` (`locations.dfy`): the record, its input and coordinates, and the
  JSON objects the endpoints assemble. `Spread` is the object spread as the
  code writes it. `Merge` is the field-by-field construction the model uses
  instead (see Findings).
- `Store` (`store.dfy`): the table, the attribute codec, the conditioned
  writes, and the listing scan. Its invariant is `Valid`: the scan order lists
  exactly the stored ids, strictly increasing, and every item is the encoding
  of a record stored under its own id.
- `Paging` (`paging.dfy`): chained listing, where each returned cursor is fed
  into the next call. It proves that every stored record is enumerated exactly
  once, and it gives the page sizes.
- `Geocode` (`geocode.dfy`): the geocoding request and the reading of the
  provider's reply.
- `MaxLocations` (`maxlocations.dfy`): the `^[1-9][0-9]*$` check on
  `maxLocations`, its decimal value, and the inverse printing.
- `Handlers` (`handlers.dfy`): the five handlers, their catch blocks, routing
  by resource and lower-cased method, and dispatch with its catch-all 500.
- `Scenarios` (`scenarios.dfy`): the request sequences of the end-to-end tests,
  stated over any valid table.

Four inputs become parameters:

- the fresh id of a created record (the source draws a random UUID);
- the geocoding client as the handlers see it (`Lookup`);
- the provider's reply function (`provider`);
- the conversion of the provider's decimal strings to numbers (`parse`).

The gateway's API description checks `maxLocations` against
`^[1-9][0-9]+$` (openapi/location-api.ts:134), which would refuse single
digits. The handler checks `^[1-9][0-9]*$` (api-lambda/handlers.ts:7), and the
tests send `"3"`. The gateway does not enforce the pattern, so the model
follows the handler: `MaxLocations.ParseExamples` shows that `"5"` is accepted.

## Model

| member | source | states |
|---|---|---|
| Outcomes.LookupMessageNamesReason | api-lambda/nominatim.ts:10-14 | a lookup failure's message determines its reason: distinct reasons give distinct messages |
| Outcomes.LookupMessageIsNotNotFound | api-lambda/nominatim.ts:10-14 | no lookup-failure message (the 400 body) equals a not-found message (the 404 body) |
| Outcomes.NotFoundMessageNamesId | api-lambda/db.ts:8-12 | the not-found message names the id: different ids never give the same message |
| KeyOrder.Insert | api-lambda/db.ts:57-64 | creating a key keeps the scan order strictly increasing and adds exactly that key |
| KeyOrder.Remove | api-lambda/db.ts:66-80 | deleting a key keeps the scan order strictly increasing and removes exactly that key |
| KeyOrder.SkipToSplits | api-lambda/db.ts:94-97 | a scan resumes at the first key strictly after the cursor: every earlier key is at or before the cursor, every later one after it, whether or not the cursor's own record still exists |
| KeyOrder.SkipToElement | api-lambda/db.ts:96 | resuming after a stored key starts at the key right behind it |
| Locations.BodyInput | openapi/location-api.ts:265-268 | a body carries a location input exactly when it has all four text fields as strings, and the input's fields are those strings |
| Locations.Spread | api-lambda/handlers.ts:56-60 | the object spread as written: the body's fields win over the id and the coordinates placed before them |
| Locations.Merge | api-lambda/handlers.ts:101-105 | the stored record takes its id from the service, its coordinates from the lookup and its text from the body; on a body with exactly the schema's fields it equals the spread |
| Locations.ObjectRoundTrip | api-lambda/handlers.ts:101-105 | the object the handlers assemble is read as a record field by field: a record's own object reads back as that record |
| Locations.SpreadLetsBodyChooseId | api-lambda/handlers.ts:101-105 | a body that passes the schema but also carries `id` makes the spread's record carry the caller's id instead of the path id |
| Locations.SpreadLetsBodyChooseLatitude | api-lambda/handlers.ts:56-60 | a body carrying `latitude` makes the spread's record carry it instead of the looked-up coordinate |
| Store.ToAttributes | api-lambda/db.ts:15-25 | the item written for a record has exactly the seven attribute names |
| Store.AttributesRoundTrip | api-lambda/db.ts:15-37 | reading back the item written for a record gives the record |
| Store.FromAttributes | api-lambda/db.ts:27-37 | a record read from an item agrees with the item on all seven attribute names, whatever further attributes the item has |
| Store.FromAttributesUnique | api-lambda/db.ts:27-37 | an item reads as every record whose written item it agrees with, so the record read is the only one that agrees, and an item that reads as nothing agrees with no record |
| Store.CreateLocation | api-lambda/db.ts:57-64 | on an absent id, inserts exactly the record, returns it, and changes no other id; on a present id, fails with the untranslated condition failure and changes nothing |
| Store.GetLocation | api-lambda/db.ts:82-91 | succeeds exactly on a present id and returns the stored record; otherwise fails with not-found, whose message is `location '<id>' not found` |
| Store.PutLocation | api-lambda/db.ts:102-117 | on a present id, replaces the whole record, keeps the scan order, and changes no other id; on an absent id, fails with not-found and inserts nothing |
| Store.DeleteLocation | api-lambda/db.ts:66-80 | on a present id, removes exactly that id; on an absent id, fails with not-found and changes nothing |
| Store.StartSplits | api-lambda/db.ts:94-97 | a scan from an exclusive start key skips exactly the keys that are not after it |
| Store.GetLocations | api-lambda/db.ts:93-100 | a page holds at most `limit` records; a cursor comes back only on a full, non-empty page and is the id of its last record |
| Store.ListingReturnsStoredRecordsAfterCursor | api-lambda/db.ts:93-100 | every listed record is the stored one and lies strictly after the cursor; the page is strictly increasing in scan order |
| Store.ListingSkipsNothing | api-lambda/db.ts:93-100 | every stored record after the cursor and not after the returned cursor is on the page; a cursor comes back exactly when some stored record after the cursor is not on the page |
| Paging.Paginate | test/e2e.test.ts:107-151 | the chained listing the test performs by hand, feeding each cursor back in until none comes back, always ends, yields at least one page, and stops on a page without a cursor |
| Paging.NextStart | api-lambda/db.ts:96-99 | the scan from a returned cursor starts right behind the page it came with |
| Paging.PaginateStep | api-lambda/db.ts:96-99 | a chained listing is its first page followed by the listing from that page's cursor, which starts strictly further on |
| Paging.CursorOnEveryPageButLast | test/e2e.test.ts:113-146 | in a chained listing every page but the last carries a cursor and is full; the last carries none |
| Paging.PaginateCovers | test/e2e.test.ts:107-151 | a chained listing from a cursor returns exactly the stored records after it, in scan order |
| Paging.EnumeratesEveryRecordOnce | test/e2e.test.ts:107-151 | a chained listing from no cursor contains every stored id, no id twice, and each record as stored, for every page limit |
| Paging.PageSizes | test/e2e.test.ts:113-147 | a chained listing of n records with limit L has pages of L records each except the last, which holds the remainder |
| Paging.OrderCountsRecords | api-lambda/db.ts:93-100 | the scan visits each stored record once: the scan order is as long as the table |
| Geocode.QueryIdentifiesAddress | api-lambda/nominatim.ts:22-31 | two locations send the same search request exactly when they agree on city, state and country, so nothing else of the location enters the request |
| Geocode.First | api-lambda/nominatim.ts:37-38 | a first result exists exactly when the body is a non-empty result list or text; on a list it is the list's head, and a text's first character carries no coordinates |
| Geocode.LookupSucceedsOnFirstResult | api-lambda/nominatim.ts:37-47 | a lookup succeeds exactly when the reply is ok and its first result has both coordinates, and then yields those coordinates |
| Geocode.Interpret | api-lambda/nominatim.ts:32-47 | reading a reply fails with a lookup failure carrying the status text when the reply is not ok; an ok reply whose body has no `at` method fails with a type error, exactly then with something other than a lookup failure; any other failing ok reply gives "no results"; success needs an ok reply with a result list whose first result exists |
| Geocode.LookupLocation | api-lambda/nominatim.ts:21-47 | a lookup fails with something other than a lookup failure exactly when the provider's answer to the location's query is ok but its body has no `at` method; it succeeds only when that answer is ok |
| Geocode.OnlyFirstResultCounts | api-lambda/nominatim.ts:37-38 | results after the first never affect the outcome |
| Geocode.StatusDecidesFirst | api-lambda/nominatim.ts:32-35 | a reply that is not ok fails whatever results it carries |
| Geocode.LookupIgnoresName | api-lambda/nominatim.ts:22-31 | the location's name never influences the lookup |
| Geocode.LookupIsOneCall | api-lambda/nominatim.ts:21-35 | the outcome depends only on the provider's answer to the one query for the location |
| MaxLocations.Matches | api-lambda/handlers.ts:7 | the left-to-right match of the pattern accepts exactly the non-empty digit strings whose first digit is not zero |
| MaxLocations.DigitsValue | api-lambda/handlers.ts:44 | a string of k digits denotes less than 10^k, and at least 10^(k-1) when its leading digit is not zero |
| MaxLocations.Parse | api-lambda/handlers.ts:33-45 | a value comes back exactly when the string matches `^[1-9][0-9]*$`, and then it is at least 1 |
| MaxLocations.Decimal | api-lambda/handlers.ts:7 | the decimal printing of a positive number matches the pattern and denotes the number |
| MaxLocations.ParseDecimal | api-lambda/handlers.ts:35-45 | parsing the printing of a positive number gives the number back |
| MaxLocations.DecimalParse | api-lambda/handlers.ts:7 | every accepted string is the printing of its value, so the pattern admits one spelling per number |
| MaxLocations.DecimalOfDigits | api-lambda/handlers.ts:7 | printing the value of a matching string gives back that string |
| MaxLocations.ParseExamples | api-lambda/handlers.ts:7 | "", "0", "01", "-3" and "abc" are refused; "5" and "25" are accepted with their values |
| Handlers.Catch | api-lambda/handlers.ts:107-114 | a catch block answers not-found with 404 and lookup failure with 400, as enabled, each with the fault's message, and lets every other fault escape |
| Handlers.List | api-lambda/handlers.ts:30-51 | 400 "Request validation failed" exactly when `maxLocations` is present and malformed; otherwise 200 with the page and cursor of one scan from the token, limited by the parsed value when given; the table never changes |
| Handlers.Post | api-lambda/handlers.ts:52-68 | 200 exactly when the body is an input, the lookup succeeds and the fresh id is unused; the record then has the fresh id, the looked-up coordinates and the body's text, is stored under that id, and no other id changes; any other outcome leaves the table unchanged |
| Handlers.Get | api-lambda/handlers.ts:84-96 | 200 with the stored record on a present id, 404 with the not-found message on an absent one; the table never changes |
| Handlers.Put | api-lambda/handlers.ts:97-115 | 200 exactly when the body is an input, the lookup succeeds and the path id is present; the record at the path id is then fully replaced; 404 on an absent id after a successful lookup, and also when the lookup itself raises not-found; any other outcome leaves the table unchanged |
| Handlers.Delete | api-lambda/handlers.ts:71-83 | 204 with no body and the id gone on a present id; 404 with the not-found message and no change on an absent one |
| Handlers.LowerByAlphabet | api-lambda/handlers.ts:127 | lower-casing keeps the length, turns each letter of the upper-case alphabet into the same letter of the lower-case alphabet, and leaves every other character alone |
| Handlers.RouteOf | api-lambda/handlers.ts:129-139 | a handler exists exactly for GET and POST on `/locations` and GET, PUT and DELETE on `/locations/{id}` |
| Handlers.Run | api-lambda/handlers.ts:139-143 | running any handler keeps the table valid |
| Handlers.Dispatch | api-lambda/handlers.ts:120-154 | the table stays valid; every answer has one of the five status codes; an unknown route gives the generic 500 with no change; a handler's response passes through; an escaped fault gives the generic 500 with no change |
| Handlers.LowerIdempotent | api-lambda/handlers.ts:127 | lower-casing twice is lower-casing once |
| Handlers.DispatchIgnoresMethodCase | api-lambda/handlers.ts:127 | a request is answered the same whatever the case of its method |
| Handlers.ReadsLeaveStoreAlone | api-lambda/handlers.ts:84-96 | a GET request never changes the table |
| Handlers.LookupFailureIsBadRequest | api-lambda/handlers.ts:52-68 | on create or update, a failed lookup gives 400 with the lookup's message and no change, whether or not the path id exists |
| Handlers.MissingBodyIsServerError | api-lambda/handlers.ts:142-153 | a create or update without a body gives the generic 500 and no change |
| Handlers.SpreadRedirectsUpdate | api-lambda/handlers.ts:101-105 | as written, an update of record `a` whose body carries `"id": "b"` writes record `b`: it replaces `b` and leaves `a` alone when `b` exists, and fails with not-found for `b` when it does not |
| Handlers.TakenIdIsServerError | api-lambda/handlers.ts:52-67 | a create under an id already in use never overwrites: it gives 400 or 500 and no change |
| Scenarios.PostThenGet | test/e2e.test.ts:181-192 | a created record is read back unchanged under its fresh id |
| Scenarios.DeleteThenGet | api-lambda/db.ts:66-91 | after a delete, reading the id gives 404 |
| Scenarios.UnknownIdIsNotFound | test/e2e.test.ts:194-272 | GET, DELETE and PUT (after a successful lookup) on an unknown id give 404 and no change, as the three unknown-id tests at lines 194-201, 230-243 and 265-272 expect |
| Scenarios.ListingOfThree | test/e2e.test.ts:113-115 | `maxLocations` "3" lists with limit 3 |
| Scenarios.EmptyTableListsNothing | test/e2e.test.ts:100-104 | the truncated table each test starts from is valid, and listing it with any accepted limit or none gives 200 with no records and no cursor, leaving it empty |
| Scenarios.TenRecordsInPagesOfThree | test/e2e.test.ts:107-151 | ten records listed three at a time come in pages of 3, 3, 3 and 1, with a cursor on all but the last |
| Scenarios.DeleteOneOfTwo | test/e2e.test.ts:247-263 | after deleting one of two records, an unlimited listing returns just the other one and no cursor |

## Left out

- Store.GetLocations: returns a cursor only when stored records remain beyond the page. Whether a cursor also comes back when the limit lands exactly on the last record, leaving an empty last page, is up to the engine and not fixed by the service code. The model takes the variant without empty pages.
- The engine's 1 MB page cap, the transport to the table and to the geocoding provider, and the engine's own faults are left out. Each store operation is atomic, and there are no concurrent writers.
- The engine's scan order is modelled as lexicographic order on ids. The service relies only on the order being a fixed total order on keys.
- Geocode.Interpret: the type error's message is a stand-in, since only its kind decides the answer. An ok reply whose body is not JSON at all fails inside the fetch client and is left out with the transport.
- Coordinates are opaque `real` values. The number-to-string conversion of the attribute codec, and the provider's string-to-number conversion, are left out. The latter is the `parse` parameter.
- Store.FromAttributes: yields `None` for an item that lacks an attribute or has one of the wrong kind. The source would throw or produce undefined fields there. The table invariant rules such items out, so no operation meets one.
- MaxLocations.Parse: yields the exact decimal value. The source's integer parsing rounds values above 2^53, which the model does not reproduce.
- Handlers.Lower: folds only the ASCII letters. Full Unicode case mapping is left out. It matters for no route, because the routes are ASCII.
- Handlers.Dispatch: takes the request body already parsed and returns the response body unserialised. JSON parsing and printing, the base64 flag and error logging are left out. Resources and methods are taken from the gateway's closed sets, so routing by a property inherited from the object prototype is left out. In the source such a name passes the `in` checks (handlers.ts:129 and 134): the method `CONSTRUCTOR` on `/locations` lower-cases to `constructor`, reaches the inherited `Object` function, and answers with an undefined status code. The model answers such requests with the generic 500.
- A request whose body is missing, or is not a location input, reaches the create and update handlers only when the gateway's body validation is off. The model lets a fault escape before any lookup, which gives the generic 500. For a missing body this is what the source does: the lookup fails reading a field of `undefined`, and that error escapes. A body object that lacks a field or holds a non-string does not fail on reading, because a missing property reads as `undefined`. The source then runs the lookup on the partial body, answers 400 when the lookup fails, and otherwise fails at the store, which gives 500. The model answers 500 in both cases, so the 400 for a partial body with a failing lookup is not modelled.
- A get, update or delete without an id path parameter is handled the same way. The source would send an invalid key to the engine, which rejects it, and the rejection escapes as a 500.
- The fresh id comes in as a parameter instead of being drawn at random.
- `Handlers.Lookup` is any function from input to outcome. The catch blocks are modelled for every fault it may return. `Geocode.LookupLocation` states which failures the geocoding client itself returns: lookup failures, except on an ok reply whose parsed body is a JSON object, number or boolean. There `data?.at(0)` throws a type error, which the catch blocks let through, so the request gets the generic 500 instead of a 400.

- Handlers.Post: builds the record with `Locations.Merge` rather than the spread. On a body with exactly the schema's four fields the two agree (`Locations.Merge`). On a schema-valid body with extra properties they differ in three ways. A body `id` makes the source create the record under the caller's id. A body `latitude` or `longitude` replaces the looked-up coordinate. Any other extra field is not stored but is echoed in the 200 response, because the source returns the spread object it was given. The model stores and answers the merged record in every case, so `Scenarios.PostThenGet` is stated for what the model answers.
- Handlers.Put: builds the record with `Locations.Merge` rather than the spread, with the same three differences for bodies with extra properties. A body `id` redirects the source's write to that id: it replaces another record, or answers 404 for that id while the path id exists. `Handlers.SpreadRedirectsUpdate` states the redirected write. A body coordinate replaces the looked-up one, and other extra fields are echoed in the response but not stored.

## Findings

| source | as written | input that shows it | evidently intended | confidence | as-written member | corrected member |
|---|---|---|---|---|---|---|
| api-lambda/handlers.ts:101-105 | the updated record is `{id: path id, ...coordinates, ...body}`; the body schema (openapi/location-api.ts:265-268) requires the four text fields but does not forbid others, so a body field `id` overrides the path id | `PUT /locations/a` with body `{"name":"n","city":"c","state":"s","country":"k","id":"b"}` writes a record with id `b`, which replaces record `b` instead of `a` | the record's id is always the path id (on create, the fresh id) | not executed; high that the override happens, medium that it matters | Handlers.SpreadRedirectsUpdate | Locations.Merge |
| api-lambda/handlers.ts:56-60 | the created record is `{id, ...coordinates, ...body}`, so body fields `latitude` and `longitude` override the looked-up coordinates | `POST /locations` with body `{"name":"n","city":"c","state":"s","country":"k","latitude":0}` stores latitude 0 whatever the lookup found | coordinates always come from the lookup | not executed; high that the override happens, low that it is unintended: the spread puts the body after the coordinates, so the precedence may be deliberate | Locations.SpreadLetsBodyChooseLatitude | Locations.Merge |

=== FILE: geocode.dfy ===
/** The geocoding client: one search request to the geocoding provider per
    lookup, and the reading of its reply.

    The request carries the fixed format `json` and the city, state and
    country of the location (never its name). A reply that is not a success
    fails the lookup with the reply's status text; otherwise the first result
    decides: when it has both a latitude and a longitude they are the
    coordinates, and in every other case the lookup fails with "no results".
    An ok reply whose parsed body has no `at` method (a JSON object, number or
    boolean) makes the reading of the first result throw a type error, which
    is not a lookup failure.
    The transport is a parameter (`provider`), and so is the conversion of the
    provider's decimal strings to numbers (`parse`).
 */
module Geocode {
  import opened Outcomes
  import opened Locations

  /** The query string of the search request. */
  datatype SearchQuery = SearchQuery(format: string, city: string, state: string, country: string)

  /** One search result; the provider sends its coordinates as decimal strings. */
  datatype Place = Place(lat: Option<string>, lon: Option<string>)

  /** The parsed body of a reply, as `data?.at(0)` sees it: absent or null; a
      result list; a JSON string, whose characters carry no coordinates; or any
      other JSON value, which has no `at` method. */
  datatype Body = NoBody | Results(places: seq<Place>) | Text(text: string) | NotIndexable

  /** The provider's reply: its status, its status text and its parsed body. */
  datatype Reply = Reply(status: int, statusText: string, data: Body)

  /** The type error `data?.at(0)` throws on a body without an `at` method. */
  const NotIndexableData: Fault := Unexpected("data.at is not a function")

  /** The status range a fetch reply counts as `ok`. */
  predicate Ok(r: Reply) {
    200 <= r.status <= 299
  }

  /** The search request for a location. */
  function QueryFor(l: LocationInput): (q: SearchQuery)
    ensures q.format == "json"
    ensures q.city == l.city && q.state == l.state && q.country == l.country
  {
    SearchQuery("json", l.city, l.state, l.country)
  }

  /** Two locations send the same search request exactly when they agree on
      city, state and country: those three, and nothing else of the
      location, go into the request. */
  lemma QueryIdentifiesAddress(a: LocationInput, b: LocationInput)
    ensures QueryFor(a) == QueryFor(b) <==> a.city == b.city && a.state == b.state && a.country == b.country
  {
  }

  /** `data?.at(0)`: the first result of a body that has one. The first
      character of a text is there, but as a place without coordinates. A body
      without an `at` method throws instead, and the caller checks for it. */
  function First(data: Body): (p: Option<Place>)
    requires !data.NotIndexable?
    ensures p.Some? <==> (data.Results? && |data.places| > 0) || (data.Text? && |data.text| > 0)
    ensures p.Some? && data.Results? ==> p.value == data.places[0]
    ensures p.Some? && data.Text? ==> p.value.lat.None? && p.value.lon.None?
  {
    match data
    case NoBody => None
    case Results(places) => if |places| > 0 then Some(places[0]) else None
    case Text(text) => if |text| > 0 then Some(Place(None, None)) else None
  }

  /** The coordinates a reply yields, or the failure it causes: a lookup
      failure, or the type error of a body without an `at` method. */
  function Interpret(r: Reply, parse: string -> Coord): (c: Result<Coordinates>)
    ensures c.Failure? ==> c.fault.LocationLookup? || c.fault == NotIndexableData
    ensures (c.Failure? && !c.fault.LocationLookup?) <==> Ok(r) && r.data.NotIndexable?
    ensures c.Failure? && !Ok(r) ==> Message(c.fault) == LookupPrefix + r.statusText
    ensures c.Failure? && Ok(r) && !r.data.NotIndexable? ==> Message(c.fault) == LookupPrefix + "no results"
    ensures c.Success? ==> Ok(r) && r.data.Results? && First(r.data).Some?
  {
    if !Ok(r) then Failure(LocationLookup(r.statusText))
    else if r.data.NotIndexable? then Failure(NotIndexableData)
    else
      var first := First(r.data);
      if first.None? || first.value.lat.None? || first.value.lon.None? then Failure(LocationLookup("no results"))
      else Success(Coordinates(parse(first.value.lat.value), parse(first.value.lon.value)))
  }

  /** `lookupLocation`: one search request, then the reading of its reply. It
      fails with something other than a lookup failure exactly when the answer
      is ok and its body has no `at` method. */
  function LookupLocation(l: LocationInput, provider: SearchQuery -> Reply, parse: string -> Coord): (c: Result<Coordinates>)
    ensures var reply := provider(QueryFor(l));
      c.Failure? ==> (c.fault.LocationLookup? <==> !(Ok(reply) && reply.data.NotIndexable?))
    ensures c.Success? ==> Ok(provider(QueryFor(l)))
  {
    Interpret(provider(QueryFor(l)), parse)
  }

  /** A lookup succeeds exactly when the reply is ok and its first result has
      both coordinates, and then yields them. */
  lemma LookupSucceedsOnFirstResult(r: Reply, parse: string -> Coord)
    ensures Interpret(r, parse).Success? <==>
      && Ok(r) && r.data.Results? && |r.data.places| > 0
      && r.data.places[0].lat.Some? && r.data.places[0].lon.Some?
    ensures Interpret(r, parse).Success? ==>
      Interpret(r, parse).value == Coordinates(parse(r.data.places[0].lat.value), parse(r.data.places[0].lon.value))
  {
  }

  /** Only the first result counts: replies that differ only in the results
      after the first are read alike. */
  lemma OnlyFirstResultCounts(status: int, text: string, p: Place, rest1: seq<Place>, rest2: seq<Place>, parse: string -> Coord)
    ensures Interpret(Reply(status, text, Results([p] + rest1)), parse) == Interpret(Reply(status, text, Results([p] + rest2)), parse)
  {
  }

  /** A not-ok reply fails the lookup whatever results it carries. */
  lemma StatusDecidesFirst(r: Reply, data: Body, parse: string -> Coord)
    requires !Ok(r)
    ensures Interpret(r, parse) == Interpret(r.(data := data), parse) == Failure(LocationLookup(r.statusText))
  {
  }

  /** The location's name plays no part in a lookup: locations with the same
      city, state and country look up alike. */
  lemma LookupIgnoresName(a: LocationInput, b: LocationInput, provider: SearchQuery -> Reply, parse: string -> Coord)
    requires a.city == b.city && a.state == b.state && a.country == b.country
    ensures LookupLocation(a, provider, parse) == LookupLocation(b, provider, parse)
  {
    assert QueryFor(a) == QueryFor(b);
  }

  /** A lookup makes one provider call and nothing else: two providers that
      answer the location's query alike give the same outcome, however they
      answer any other query. */
  lemma LookupIsOneCall(l: LocationInput, p1: SearchQuery -> Reply, p2: SearchQuery -> Reply, parse: string -> Coord)
    requires p1(QueryFor(l)) == p2(QueryFor(l))
    ensures LookupLocation(l, p1, parse) == LookupLocation(l, p2, parse)
  {
  }
}

=== FILE: handlers.dfy ===
/** The request handlers of the location service and their dispatch.

    Five handlers serve two resources: `GET` and `POST` on `/locations`, and
    `GET`, `PUT` and `DELETE` on `/locations/{id}`. Each handler either
    produces a response or lets a fault escape; the dispatcher turns an escaped
    fault, and a request for any other resource or method, into a 500
    response. The geocoding client and the fresh id of a created record are
    parameters; a handler's effect on the store is its result table.
 */
module Handlers {
  import opened Outcomes
  import opened Locations
  import opened Store
  import MaxLocations

  const Ok: int := 200
  const NoContent: int := 204
  const BadRequest: int := 400
  const NotFound: int := 404
  const InternalServerError: int := 500

  /** The status codes the service answers with. */
  const StatusCodes: set<int> := {Ok, NoContent, BadRequest, NotFound, InternalServerError}

  /** A response body, before it is serialised. */
  datatype Body =
    | NoBody
    | ErrorMessage(message: string)
    | Record(location: Location)
    | Listing(locations: seq<Location>, continuationToken: Option<string>)

  datatype Response = Response(statusCode: int, body: Body)

  const InternalServerErrorResponse: Response := Response(InternalServerError, ErrorMessage("Internal Server Error"))

  /** The query string parameters a listing reads. */
  datatype Query = Query(maxLocations: Option<string>, continuationToken: Option<string>)

  /** A request as the gateway hands it over: its resource template, its method,
      the `id` path parameter, the query parameters and the parsed body. */
  datatype Request = Request(
    resource: string, httpMethod: string,
    pathId: Option<string>, query: Query, body: Option<Object>)

  /** The geocoding client as the handlers see it. */
  type Lookup = LocationInput -> Result<Coordinates>

  /** What a handler produces: a response or an escaping fault, and the store afterwards. */
  type Handled = (Result<Response>, Table)

  /** A handler's catch block: it answers a `LocationNotFound` with 404 when
      `notFound` is set, a `LocationLookup` with 400 when `lookup` is set, each
      with the fault's message, and lets every other fault escape. */
  function Catch(f: Fault, notFound: bool, lookup: bool): (r: Result<Response>)
    ensures r.Success? <==> (notFound && f.LocationNotFound?) || (lookup && f.LocationLookup?)
    ensures r.Success? ==> r.value.body == ErrorMessage(Message(f))
    ensures r.Success? ==> (r.value.statusCode == NotFound <==> f.LocationNotFound?)
    ensures r.Success? ==> (r.value.statusCode == BadRequest <==> f.LocationLookup?)
    ensures r.Failure? ==> r.fault == f
  {
    if notFound && f.LocationNotFound? then Success(Response(NotFound, ErrorMessage(Message(f))))
    else if lookup && f.LocationLookup? then Success(Response(BadRequest, ErrorMessage(Message(f))))
    else Failure(f)
  }

  /** The fault raised when a handler reads a field of a body that is missing or
      not a location input. */
  const MalformedBody: Fault := Unexpected("request body is not a location input")

  /** The fault raised when the store is asked for a record without an id. */
  const MissingId: Fault := Unexpected("request has no id path parameter")

  /** `GET /locations`: a malformed `maxLocations` is answered with 400;
      otherwise one scan from the continuation token, limited to `maxLocations`
      records when it is given, is answered with 200. */
  function List(t: Table, q: Query): (h: Handled)
    requires Valid(t)
    ensures h.1 == t && h.0.Success?
    ensures h.0.value.statusCode == BadRequest <==> q.maxLocations.Some? && !MaxLocations.Matches(q.maxLocations.value)
    ensures h.0.value.statusCode == BadRequest ==> h.0.value.body == ErrorMessage("Request validation failed")
    ensures h.0.value.statusCode != BadRequest ==>
      && h.0.value.statusCode == Ok
      && var limit := if q.maxLocations.Some? then MaxLocations.Parse(q.maxLocations.value) else None;
         var p := GetLocations(t, q.continuationToken, limit);
         h.0.value.body == Listing(p.locations, p.next)
  {
    if q.maxLocations.Some? && MaxLocations.Parse(q.maxLocations.value).None? then
      (Success(Response(BadRequest, ErrorMessage("Request validation failed"))), t)
    else
      var limit := if q.maxLocations.Some? then MaxLocations.Parse(q.maxLocations.value) else None;
      var p := GetLocations(t, q.continuationToken, limit);
      (Success(Response(Ok, Listing(p.locations, p.next))), t)
  }

  /** `POST /locations`: look up the body's coordinates, then create the record
      under the fresh id. A failed lookup is answered with 400; a fresh id that
      is already taken lets the store's refusal escape. */
  function Post(t: Table, body: Option<Object>, freshId: string, lookup: Lookup): (h: Handled)
    requires Valid(t)
    ensures Valid(h.1)
    ensures h.0.Success? && h.0.value.statusCode == Ok <==>
      && body.Some? && BodyInput(body.value).Some?
      && lookup(BodyInput(body.value).value).Success?
      && freshId !in t.items
    ensures h.0.Success? && h.0.value.statusCode == Ok ==>
      var b := BodyInput(body.value).value;
      var c := lookup(b).value;
      && h.0.value.body == Record(Merge(freshId, c, b))
      && freshId in h.1.items && Stored(h.1, freshId) == Merge(freshId, c, b)
      && SameElsewhere(t, h.1, freshId)
    ensures !(h.0.Success? && h.0.value.statusCode == Ok) ==> h.1 == t
  {
    if body.None? || BodyInput(body.value).None? then (Failure(MalformedBody), t)
    else
      var b := BodyInput(body.value).value;
      match lookup(b)
      case Failure(f) => (Catch(f, false, true), t)
      case Success(c) =>
        var (r, t') := CreateLocation(t, Merge(freshId, c, b));
        if r.Success? then (Success(Response(Ok, Record(r.value))), t')
        else (Catch(r.fault, false, true), t')
  }

  /** `GET /locations/{id}`: the stored record with 200, or 404. */
  function Get(t: Table, id: Option<string>): (h: Handled)
    requires Valid(t)
    ensures h.1 == t
    ensures h.0.Success? <==> id.Some?
    ensures id.Some? && id.value in t.items ==> h.0 == Success(Response(Ok, Record(Stored(t, id.value))))
    ensures id.Some? && id.value !in t.items ==>
      h.0 == Success(Response(NotFound, ErrorMessage("location '" + id.value + "' not found")))
  {
    if id.None? then (Failure(MissingId), t)
    else
      match GetLocation(t, id.value)
      case Success(l) => (Success(Response(Ok, Record(l))), t)
      case Failure(f) => (Catch(f, true, false), t)
  }

  /** `PUT /locations/{id}`: look up the body's coordinates, then replace the
      record stored under the path id. The lookup comes first, so a failed
      lookup is answered with 400 even when no record has that id; a missing
      record is answered with 404. */
  function Put(t: Table, id: Option<string>, body: Option<Object>, lookup: Lookup): (h: Handled)
    requires Valid(t)
    ensures Valid(h.1)
    ensures h.0.Success? && h.0.value.statusCode == Ok <==>
      && body.Some? && BodyInput(body.value).Some?
      && lookup(BodyInput(body.value).value).Success?
      && id.Some? && id.value in t.items
    ensures h.0.Success? && h.0.value.statusCode == Ok ==>
      var b := BodyInput(body.value).value;
      var c := lookup(b).value;
      && h.0.value.body == Record(Merge(id.value, c, b))
      && id.value in h.1.items && Stored(h.1, id.value) == Merge(id.value, c, b)
      && SameElsewhere(t, h.1, id.value)
      && h.1.order == t.order
    ensures h.0.Success? && h.0.value.statusCode == NotFound <==>
      && body.Some? && BodyInput(body.value).Some?
      && var c := lookup(BodyInput(body.value).value);
         || (c.Success? && id.Some? && id.value !in t.items)
         || (c.Failure? && c.fault.LocationNotFound?)
    ensures !(h.0.Success? && h.0.value.statusCode == Ok) ==> h.1 == t
  {
    if body.None? || BodyInput(body.value).None? then (Failure(MalformedBody), t)
    else
      var b := BodyInput(body.value).value;
      match lookup(b)
      case Failure(f) => (Catch(f, true, true), t)
      case Success(c) =>
        if id.None? then (Failure(MissingId), t)
        else
          var (r, t') := PutLocation(t, Merge(id.value, c, b));
          if r.Success? then (Success(Response(Ok, Record(r.value))), t')
          else (Catch(r.fault, true, true), t')
  }

  /** `DELETE /locations/{id}`: 204 when a record was deleted, 404 when there was none. */
  function Delete(t: Table, id: Option<string>): (h: Handled)
    requires Valid(t)
    ensures Valid(h.1)
    ensures h.0.Success? <==> id.Some?
    ensures id.Some? && id.value in t.items ==>
      && h.0 == Success(Response(NoContent, NoBody))
      && id.value !in h.1.items && SameElsewhere(t, h.1, id.value)
    ensures id.Some? && id.value !in t.items ==>
      && h.0 == Success(Response(NotFound, ErrorMessage("location '" + id.value + "' not found")))
      && h.1 == t
    ensures id.None? ==> h.1 == t
  {
    if id.None? then (Failure(MissingId), t)
    else
      var (r, t') := DeleteLocation(t, id.value);
      if r.Success? then (Success(Response(NoContent, NoBody)), t')
      else (Catch(r.fault, true, true), t')
  }

  /** The routes the service serves. */
  datatype Route = ListLocations | PostLocation | GetLocationById | PutLocationById | DeleteLocationById

  /** The ASCII alphabet in upper and in lower case, letter for letter. */
  const UpperAZ: string := "ABCDEFGHIJKLMNOPQRSTUVWXYZ"
  const LowerAZ: string := "abcdefghijklmnopqrstuvwxyz"

  /** ASCII upper-case letters to lower case; every other character unchanged. */
  function Lower(s: string): (r: string)
    ensures |r| == |s|
    ensures forall i :: 0 <= i < |s| ==> r[i] == (if 'A' <= s[i] <= 'Z' then (s[i] as int + 32) as char else s[i])
  {
    seq(|s|, i requires 0 <= i < |s| => if 'A' <= s[i] <= 'Z' then (s[i] as int + 32) as char else s[i])
  }

  /** Lower-casing against the alphabet: each letter of the upper-case
      alphabet becomes the same letter of the lower-case alphabet, and every
      other character stays. */
  lemma LowerByAlphabet(s: string)
    ensures |Lower(s)| == |s|
    ensures forall i, k :: 0 <= i < |s| && 0 <= k < |UpperAZ| && s[i] == UpperAZ[k] ==> Lower(s)[i] == LowerAZ[k]
    ensures forall i :: 0 <= i < |s| && s[i] !in UpperAZ ==> Lower(s)[i] == s[i]
  {
    assert forall k :: 0 <= k < |UpperAZ| ==> 'A' <= UpperAZ[k] <= 'Z' && LowerAZ[k] == (UpperAZ[k] as int + 32) as char;
    forall c: char | 'A' <= c <= 'Z' ensures c in UpperAZ {
      assert UpperAZ[c as int - 'A' as int] == c;
    }
  }

  /** The handler for a resource and a lower-cased method, if there is one. */
  function RouteOf(resource: string, verb: string): (r: Option<Route>)
    ensures r.Some? <==>
      || (resource == "/locations" && verb in {"get", "post"})
      || (resource == "/locations/{id}" && verb in {"get", "put", "delete"})
  {
    if resource == "/locations" then
      if verb == "get" then Some(ListLocations)
      else if verb == "post" then Some(PostLocation)
      else None
    else if resource == "/locations/{id}" then
      if verb == "get" then Some(GetLocationById)
      else if verb == "put" then Some(PutLocationById)
      else if verb == "delete" then Some(DeleteLocationById)
      else None
    else None
  }

  /** Runs the handler of a route. */
  function Run(t: Table, route: Route, req: Request, freshId: string, lookup: Lookup): (h: Handled)
    requires Valid(t)
    ensures Valid(h.1)
  {
    match route
    case ListLocations => List(t, req.query)
    case PostLocation => Post(t, req.body, freshId, lookup)
    case GetLocationById => Get(t, req.pathId)
    case PutLocationById => Put(t, req.pathId, req.body, lookup)
    case DeleteLocationById => Delete(t, req.pathId)
  }

  /** `dispatch`: route the request by resource and lower-cased method, run the
      handler, and answer an unknown route or an escaped fault with the generic
      500 response. The store stays valid, every answer carries one of the
      service's status codes, and a 500 leaves the store as it was. */
  function Dispatch(t: Table, req: Request, freshId: string, lookup: Lookup): (r: (Response, Table))
    requires Valid(t)
    ensures Valid(r.1)
    ensures r.0.statusCode in StatusCodes
    ensures RouteOf(req.resource, Lower(req.httpMethod)).None? ==> r == (InternalServerErrorResponse, t)
    ensures r.0.statusCode == InternalServerError ==> r.0 == InternalServerErrorResponse && r.1 == t
    ensures RouteOf(req.resource, Lower(req.httpMethod)).Some? ==>
      var h := Run(t, RouteOf(req.resource, Lower(req.httpMethod)).value, req, freshId, lookup);
      && (h.0.Success? ==> r == (h.0.value, h.1))
      && (h.0.Failure? ==> r == (InternalServerErrorResponse, t))
  {
    var route := RouteOf(req.resource, Lower(req.httpMethod));
    if route.None? then (InternalServerErrorResponse, t)
    else
      var (res, t') := Run(t, route.value, req, freshId, lookup);
      if res.Failure? then (InternalServerErrorResponse, t')
      else (res.value, t')
  }

  /** Lower-casing is idempotent, so a method that is already lower case is
      routed as itself. */
  lemma LowerIdempotent(s: string)
    ensures Lower(Lower(s)) == Lower(s)
  {
  }

  /** Routing ignores the case of the method. */
  lemma DispatchIgnoresMethodCase(t: Table, req: Request, freshId: string, lookup: Lookup)
    requires Valid(t)
    ensures Dispatch(t, req, freshId, lookup) == Dispatch(t, req.(httpMethod := Lower(req.httpMethod)), freshId, lookup)
  {
    LowerIdempotent(req.httpMethod);
  }

  /** The listing and the single-record read never change the store. */
  lemma ReadsLeaveStoreAlone(t: Table, req: Request, freshId: string, lookup: Lookup)
    requires Valid(t)
    requires Lower(req.httpMethod) == "get"
    ensures Dispatch(t, req, freshId, lookup).1 == t
  {
  }

  /** On create and update, a failed geocoding lookup is answered with 400 and
      the lookup's message, and the store is left as it was, whether or not a
      record has the path id. */
  lemma LookupFailureIsBadRequest(t: Table, req: Request, freshId: string, lookup: Lookup, reason: string)
    requires Valid(t)
    requires RouteOf(req.resource, Lower(req.httpMethod)) in {Some(PostLocation), Some(PutLocationById)}
    requires req.body.Some? && BodyInput(req.body.value).Some?
    requires lookup(BodyInput(req.body.value).value) == Failure(LocationLookup(reason))
    ensures Dispatch(t, req, freshId, lookup) == (Response(BadRequest, ErrorMessage(LookupPrefix + reason)), t)
  {
  }

  /** A request without a body on create or update reaches no handler logic:
      it is answered with the generic 500 and changes nothing. */
  lemma MissingBodyIsServerError(t: Table, req: Request, freshId: string, lookup: Lookup)
    requires Valid(t)
    requires RouteOf(req.resource, Lower(req.httpMethod)) in {Some(PostLocation), Some(PutLocationById)}
    requires req.body.None?
    ensures Dispatch(t, req, freshId, lookup) == (InternalServerErrorResponse, t)
  {
  }

  /** A create whose fresh id is already taken never overwrites: the store's
      refusal is answered with the generic 500 (or the lookup's 400, which
      comes first), and the existing record is kept. */
  lemma TakenIdIsServerError(t: Table, req: Request, freshId: string, lookup: Lookup)
    requires Valid(t)
    requires RouteOf(req.resource, Lower(req.httpMethod)) == Some(PostLocation)
    requires freshId in t.items
    ensures Dispatch(t, req, freshId, lookup).1 == t
    ensures Dispatch(t, req, freshId, lookup).0.statusCode in {BadRequest, InternalServerError}
  {
  }

  /** The spread as written, carried through to the store. An update of record
      `a` whose body also carries `"id": other` builds the record of `other`
      and writes it under `other`: when `other` is stored, that record is
      replaced and `a` is left as it was; when it is not, the update fails with
      not-found for `other`, although `a` exists. `Put` builds the record with
      `Merge`, which always writes under the path id. */
  lemma SpreadRedirectsUpdate(t: Table, a: string, other: string, c: Coordinates, b: LocationInput)
    requires Valid(t) && a in t.items && other != a
    ensures var body := InputObject(b)["id" := Str(other)];
      && BodyInput(body) == Some(b)
      && LocationOf(Spread(a, c, body)) == Some(Merge(other, c, b))
    ensures var (r, t') := PutLocation(t, Merge(other, c, b));
      && (other !in t.items ==> r == Failure(LocationNotFound(other)) && t' == t)
      && (other in t.items ==>
            && r.Success? && Stored(t', other) == Merge(other, c, b)
            && a in t'.items && t'.items[a] == t.items[a])
  {
    var body := InputObject(b)["id" := Str(other)];
    var written := Merge(other, c, b);
    assert Spread(a, c, body) == ObjectOf(written) by {
      assert Spread(a, c, body).Keys == ObjectOf(written).Keys;
      forall f | f in Spread(a, c, body) ensures Spread(a, c, body)[f] == ObjectOf(written)[f] {
        if f == "id" {
          assert Spread(a, c, body)[f] == Str(other);
        }
      }
    }
    ObjectRoundTrip(written);
  }
}

=== FILE: keyorder.dfy ===
/** The order in which a scan of the table visits its keys.

    The engine visits partition keys in an order of its own that depends only on
    the keys; the model fixes it to the lexicographic order of the id strings.
    Nothing in the service relies on which total order it is, only that it is a
    fixed total order, so that "strictly after the cursor" is meaningful even
    when the cursor's own record has since been deleted.
 */
module KeyOrder {

  /** Strict lexicographic order on strings. */
  predicate Less(a: string, b: string)
    decreases |a|
  {
    if |a| == 0 then |b| > 0
    else if |b| == 0 then false
    else a[0] < b[0] || (a[0] == b[0] && Less(a[1..], b[1..]))
  }

  lemma {:induction false} LessIrreflexive(a: string)
    ensures !Less(a, a)
    decreases |a|
  {
    if |a| > 0 {
      LessIrreflexive(a[1..]);
    }
  }

  lemma {:induction false} LessTransitive(a: string, b: string, c: string)
    requires Less(a, b) && Less(b, c)
    ensures Less(a, c)
    decreases |a|
  {
    if |a| > 0 && a[0] == b[0] && b[0] == c[0] {
      LessTransitive(a[1..], b[1..], c[1..]);
    }
  }

  lemma {:induction false} LessTotal(a: string, b: string)
    ensures a == b || Less(a, b) || Less(b, a)
    decreases |a|
  {
    if |a| > 0 && |b| > 0 && a[0] == b[0] {
      LessTotal(a[1..], b[1..]);
      if a[1..] == b[1..] {
        assert a == [a[0]] + a[1..] && b == [b[0]] + b[1..];
      }
    }
  }

  lemma {:induction false} LessAsymmetric(a: string, b: string)
    requires Less(a, b)
    ensures !Less(b, a)
  {
    if Less(b, a) {
      LessTransitive(a, b, a);
      LessIrreflexive(a);
    }
  }

  /** Strictly increasing, hence free of duplicates. */
  ghost predicate Sorted(s: seq<string>) {
    forall i, j {:trigger Less(s[i], s[j])} :: 0 <= i < j < |s| ==> Less(s[i], s[j])
  }

  lemma SortedDistinct(s: seq<string>, i: int, j: int)
    requires Sorted(s) && 0 <= i < |s| && 0 <= j < |s| && i != j
    ensures s[i] != s[j]
  {
    if i < j { LessIrreflexive(s[i]); } else { LessIrreflexive(s[j]); }
  }

  lemma SortedCons(a: string, s: seq<string>)
    requires Sorted(s)
    requires forall x :: x in s ==> Less(a, x)
    ensures Sorted([a] + s)
  {
    var r := [a] + s;
    forall i, j | 0 <= i < j < |r|
      ensures Less(r[i], r[j])
    {
      if i == 0 {
        assert r[j] == s[j - 1] && s[j - 1] in s;
      } else {
        assert r[i] == s[i - 1] && r[j] == s[j - 1];
      }
    }
  }

  /** `s` with `k` placed at its position in scan order. */
  function Insert(s: seq<string>, k: string): (r: seq<string>)
    requires Sorted(s) && k !in s
    ensures Sorted(r)
    ensures forall x :: x in r <==> x in s || x == k
    ensures |r| == |s| + 1
    decreases |s|
  {
    if |s| == 0 then [k]
    else if Less(k, s[0]) then
      assert forall x :: x in s ==> Less(k, x) by {
        forall x | x in s ensures Less(k, x) {
          var j :| 0 <= j < |s| && s[j] == x;
          if j > 0 { LessTransitive(k, s[0], x); }
        }
      }
      SortedCons(k, s);
      [k] + s
    else
      LessTotal(k, s[0]);
      var rest := Insert(s[1..], k);
      assert forall x :: x in rest ==> Less(s[0], x) by {
        forall x | x in rest ensures Less(s[0], x) {
          if x != k {
            var j :| 0 <= j < |s[1..]| && s[1..][j] == x;
            assert s[j + 1] == x;
          }
        }
      }
      SortedCons(s[0], rest);
      assert forall x :: x in s <==> x == s[0] || x in s[1..] by {
        assert s == [s[0]] + s[1..];
      }
      [s[0]] + rest
  }

  /** `s` without `k`. */
  function Remove(s: seq<string>, k: string): (r: seq<string>)
    requires Sorted(s)
    ensures Sorted(r)
    ensures forall x :: x in r <==> x in s && x != k
    decreases |s|
  {
    if |s| == 0 then []
    else
      var rest := Remove(s[1..], k);
      assert forall x :: x in s <==> x == s[0] || x in s[1..] by {
        assert s == [s[0]] + s[1..];
      }
      if s[0] == k then rest
      else
        assert forall x :: x in rest ==> Less(s[0], x) by {
          forall x | x in rest ensures Less(s[0], x) {
            var j :| 0 <= j < |s[1..]| && s[1..][j] == x;
            assert s[j + 1] == x;
          }
        }
        SortedCons(s[0], rest);
        [s[0]] + rest
  }

  /** The position from which a scan of `s` resumes after cursor `c`: the
      first position holding a key strictly after `c`. */
  function SkipTo(s: seq<string>, c: string): (i: nat)
    ensures i <= |s|
  {
    SkipFrom(s, c, 0)
  }

  /** The first position from `from` on that holds a key strictly after `c`. */
  function SkipFrom(s: seq<string>, c: string, from: nat): (i: nat)
    requires from <= |s|
    ensures from <= i <= |s|
    decreases |s| - from
  {
    if from == |s| || Less(c, s[from]) then from else SkipFrom(s, c, from + 1)
  }

  /** In a sorted order the resume position splits the keys: every key before
      it is at or before `c`, every key from it on is strictly after `c`. */
  lemma SkipToSplits(s: seq<string>, c: string)
    requires Sorted(s)
    ensures forall j :: 0 <= j < |s| ==> (SkipTo(s, c) <= j <==> Less(c, s[j]))
  {
    SkipFromSplits(s, c, 0);
  }

  lemma {:induction false} SkipFromSplits(s: seq<string>, c: string, from: nat)
    requires Sorted(s) && from <= |s|
    requires forall j :: 0 <= j < from ==> !Less(c, s[j])
    ensures forall j :: 0 <= j < |s| ==> (SkipFrom(s, c, from) <= j <==> Less(c, s[j]))
    decreases |s| - from
  {
    if from == |s| {
    } else if Less(c, s[from]) {
      forall j | from < j < |s| ensures Less(c, s[j]) {
        assert Less(s[from], s[j]);
        LessTransitive(c, s[from], s[j]);
      }
    } else {
      SkipFromSplits(s, c, from + 1);
    }
  }

  /** Resuming after a key that is itself in the order resumes at the next position. */
  lemma SkipToElement(s: seq<string>, i: int)
    requires Sorted(s) && 0 <= i < |s|
    ensures SkipTo(s, s[i]) == i + 1
  {
    SkipToSplits(s, s[i]);
    LessIrreflexive(s[i]);
    forall j | 0 <= j < i
      ensures !Less(s[i], s[j])
    {
      LessAsymmetric(s[j], s[i]);
    }
    assert i + 1 < |s| ==> Less(s[i], s[i + 1]);
  }
}

=== FILE: locations.dfy ===
/** The location record and how the endpoints assemble it.

    A request body reaches the service as a JSON object. The endpoints build the
    record to store with an object spread, `{id, ...coordinates, ...body}`; the
    gateway's body schema requires the four text fields but does not forbid
    others, so the spread lets a body field named `id`, `latitude` or `longitude`
    override the value put before it. `Spread` models that construction as
    written; `Merge` is the field-by-field construction the rest of the model
    uses, in which the id and the coordinates cannot be overridden.
 */
module Locations {
  import opened Outcomes

  /** Latitudes and longitudes are opaque numbers: the model never computes with them. */
  type Coord = real

  datatype Coordinates = Coordinates(latitude: Coord, longitude: Coord)

  /** The caller-supplied fields of a record (the `locationInput` schema). */
  datatype LocationInput = LocationInput(name: string, city: string, state: string, country: string)

  /** A stored record (the `locationOutput` schema). */
  datatype Location = Location(
    id: string,
    name: string, city: string, state: string, country: string,
    latitude: Coord, longitude: Coord)

  function InputOf(l: Location): LocationInput {
    LocationInput(l.name, l.city, l.state, l.country)
  }

  function CoordinatesOf(l: Location): Coordinates {
    Coordinates(l.latitude, l.longitude)
  }

  /** A JSON value as far as the service looks at one, and a JSON object. */
  datatype Value = Str(s: string) | Num(n: Coord)
  type Object = map<string, Value>

  function CoordinatesObject(c: Coordinates): Object {
    map["latitude" := Num(c.latitude), "longitude" := Num(c.longitude)]
  }

  function InputObject(b: LocationInput): Object {
    map["name" := Str(b.name), "city" := Str(b.city), "state" := Str(b.state), "country" := Str(b.country)]
  }

  /** The JSON object of a record. */
  function ObjectOf(l: Location): Object {
    map["id" := Str(l.id)] + CoordinatesObject(CoordinatesOf(l)) + InputObject(InputOf(l))
  }

  /** Reads a record back from a JSON object; `None` when a field is missing or of the wrong kind. */
  function LocationOf(o: Object): (r: Option<Location>)
    ensures r.Some? ==> ObjectOf(r.value).Keys <= o.Keys
  {
    if && "id" in o && o["id"].Str?
       && "name" in o && o["name"].Str? && "city" in o && o["city"].Str?
       && "state" in o && o["state"].Str? && "country" in o && o["country"].Str?
       && "latitude" in o && o["latitude"].Num? && "longitude" in o && o["longitude"].Num?
    then Some(Location(o["id"].s, o["name"].s, o["city"].s, o["state"].s, o["country"].s,
                       o["latitude"].n, o["longitude"].n))
    else None
  }

  /** The fields the body schema requires. */
  const InputFields: set<string> := {"name", "city", "state", "country"}

  /** The text fields a request body carries, when it carries all four as strings
      (the gateway's body validation guarantees this). */
  function BodyInput(body: Object): (r: Option<LocationInput>)
    ensures r.Some? <==> forall f :: f in InputFields ==> f in body && body[f].Str?
    ensures r.Some? ==> forall f :: f in InputFields ==> body[f] == InputObject(r.value)[f]
  {
    if "name" in body && body["name"].Str? && "city" in body && body["city"].Str?
       && "state" in body && body["state"].Str? && "country" in body && body["country"].Str?
    then Some(LocationInput(body["name"].s, body["city"].s, body["state"].s, body["country"].s))
    else None
  }

  /** `{id, ...coordinates, ...body}` exactly as the endpoints write it: a
      right-biased union of objects. */
  function Spread(id: string, c: Coordinates, body: Object): (o: Object)
    ensures o.Keys == {"id", "latitude", "longitude"} + body.Keys
    ensures forall f :: f in body ==> o[f] == body[f]
    ensures "latitude" !in body ==> o["latitude"] == Num(c.latitude)
    ensures "longitude" !in body ==> o["longitude"] == Num(c.longitude)
    ensures "id" !in body ==> o["id"] == Str(id)
  {
    map["id" := Str(id)] + CoordinatesObject(c) + body
  }

  /** The record built from an id, the looked-up coordinates and the body's text
      fields, field by field: the id and the coordinates come from the service,
      never from the caller. On a body with exactly the schema's four fields it
      agrees with the object spread. */
  function Merge(id: string, c: Coordinates, b: LocationInput): (l: Location)
    ensures l.id == id && CoordinatesOf(l) == c && InputOf(l) == b
    ensures ObjectOf(l) == Spread(id, c, InputObject(b))
  {
    Location(id, b.name, b.city, b.state, b.country, c.latitude, c.longitude)
  }

  /** A record is determined by its JSON object: reading the object back gives the record. */
  lemma ObjectRoundTrip(l: Location)
    ensures LocationOf(ObjectOf(l)) == Some(l)
  {
  }

  /** The spread as written: a body that passes the gateway's validation but
      also carries `id` yields a record whose id is the caller's, not the one the
      service chose (the path id on update, the fresh id on create). */
  lemma SpreadLetsBodyChooseId(id: string, other: string, c: Coordinates, b: LocationInput)
    requires other != id
    ensures var body := InputObject(b)["id" := Str(other)];
            && BodyInput(body) == Some(b)
            && LocationOf(Spread(id, c, body)).Some?
            && LocationOf(Spread(id, c, body)).value.id == other
            && Merge(id, c, b).id == id
  {
    var body := InputObject(b)["id" := Str(other)];
    assert Spread(id, c, body)["id"] == Str(other);
  }

  /** The spread as written: a body carrying `latitude` overrides the looked-up
      coordinate, so a stored latitude need not come from the lookup. */
  lemma SpreadLetsBodyChooseLatitude(id: string, c: Coordinates, b: LocationInput, lat: Coord)
    requires lat != c.latitude
    ensures var body := InputObject(b)["latitude" := Num(lat)];
            && BodyInput(body) == Some(b)
            && LocationOf(Spread(id, c, body)).Some?
            && LocationOf(Spread(id, c, body)).value.latitude == lat
            && Merge(id, c, b).latitude == c.latitude
  {
    var body := InputObject(b)["latitude" := Num(lat)];
    assert Spread(id, c, body)["latitude"] == Num(lat);
  }
}

=== FILE: maxlocations.dfy ===
/** The `maxLocations` query parameter of a listing.

    The gateway passes the parameter through as a string without checking its
    pattern, so the list endpoint checks it itself against `^[1-9][0-9]*$` (a
    positive decimal number without leading zeros) and only then converts it
    to a number. `Decimal` is the inverse conversion; the two round-trip.
 */
module MaxLocations {
  import opened Outcomes

  predicate IsDigit(c: char) {
    '0' <= c <= '9'
  }

  predicate AllDigits(s: string) {
    forall i :: 0 <= i < |s| ==> IsDigit(s[i])
  }

  /** The state of a left-to-right match of `^[1-9][0-9]*$`: nothing read yet,
      inside the digits after a first digit other than zero, or refused. */
  datatype MatchState = Initial | InDigits | Refused

  function Step(st: MatchState, c: char): MatchState {
    match st
    case Initial => if '1' <= c <= '9' then InDigits else Refused
    case InDigits => if IsDigit(c) then InDigits else Refused
    case Refused => Refused
  }

  function Scan(st: MatchState, s: string): MatchState
    decreases |s|
  {
    if |s| == 0 then st else Scan(Step(st, s[0]), s[1..])
  }

  lemma {:induction false} ScanRefused(s: string)
    ensures Scan(Refused, s) == Refused
    decreases |s|
  {
    if |s| > 0 {
      ScanRefused(s[1..]);
    }
  }

  /** From inside the digits, the scan stays there exactly on a digit string. */
  lemma {:induction false} ScanDigits(s: string)
    ensures Scan(InDigits, s) == InDigits <==> AllDigits(s)
    decreases |s|
  {
    if |s| > 0 {
      var rest := s[1..];
      ScanDigits(rest);
      ScanRefused(rest);
      if AllDigits(s) {
        forall i | 0 <= i < |rest| ensures IsDigit(rest[i]) {
          assert rest[i] == s[i + 1];
        }
      }
      if IsDigit(s[0]) && AllDigits(rest) {
        forall i | 0 <= i < |s| ensures IsDigit(s[i]) {
          if i > 0 { assert s[i] == rest[i - 1]; }
        }
      }
    }
  }

  /** `s` matches `^[1-9][0-9]*$`: the scan ends inside the digits. Exactly the
      non-empty digit strings whose first digit is not zero match. */
  function Matches(s: string): (b: bool)
    ensures b <==> |s| >= 1 && '1' <= s[0] <= '9' && AllDigits(s)
  {
    if |s| > 0 then
      ScanDigits(s[1..]);
      ScanRefused(s[1..]);
      assert AllDigits(s) <==> IsDigit(s[0]) && AllDigits(s[1..]) by {
        if IsDigit(s[0]) && AllDigits(s[1..]) {
          forall i | 0 <= i < |s| ensures IsDigit(s[i]) {
            if i > 0 { assert s[i] == s[1..][i - 1]; }
          }
        }
        if AllDigits(s) {
          forall i | 0 <= i < |s[1..]| ensures IsDigit(s[1..][i]) {
            assert s[1..][i] == s[i + 1];
          }
        }
      }
      Scan(Initial, s) == InDigits
    else
      Scan(Initial, s) == InDigits
  }

  function Pow10(k: nat): (p: nat)
    ensures p >= 1
  {
    if k == 0 then 1 else 10 * Pow10(k - 1)
  }

  function DigitValue(c: char): (d: nat)
    requires IsDigit(c)
    ensures d <= 9
  {
    c as int - '0' as int
  }

  function DigitChar(d: nat): (c: char)
    requires d <= 9
    ensures IsDigit(c) && DigitValue(c) == d
  {
    ('0' as int + d) as char
  }

  /** The number a string of decimal digits denotes, most significant digit
      first. A string of `k` digits denotes less than 10^k, and at least
      10^(k-1) when its leading digit is not zero. */
  function DigitsValue(s: string): (n: nat)
    requires AllDigits(s)
    ensures n < Pow10(|s|)
    ensures |s| > 0 && s[0] != '0' ==> Pow10(|s| - 1) <= n
    decreases |s|
  {
    if |s| == 0 then 0
    else
      var init := s[..|s| - 1];
      assert AllDigits(init) by {
        forall i | 0 <= i < |init| ensures IsDigit(init[i]) {
          assert init[i] == s[i];
        }
      }
      assert |init| > 0 ==> init[0] == s[0];
      DigitsValue(init) * 10 + DigitValue(s[|s| - 1])
  }

  /** The value of the parameter: a number of at least 1 exactly when the
      string matches the pattern; `None` is the 400 "Request validation failed". */
  function Parse(s: string): (r: Option<nat>)
    ensures r.Some? <==> Matches(s)
    ensures r.Some? ==> 1 <= r.value && Pow10(|s| - 1) <= r.value < Pow10(|s|)
  {
    if Matches(s) then Some(DigitsValue(s)) else None
  }

  /** The canonical decimal string of a positive number: it matches the pattern
      and denotes the number. */
  function Decimal(n: nat): (s: string)
    requires n >= 1
    ensures Matches(s) && DigitsValue(s) == n
    decreases n
  {
    if n < 10 then [DigitChar(n)]
    else
      var init := Decimal(n / 10);
      var s := init + [DigitChar(n % 10)];
      assert s[..|s| - 1] == init;
      assert AllDigits(s) by {
        forall i | 0 <= i < |s| ensures IsDigit(s[i]) {
          if i < |init| { assert s[i] == init[i]; }
        }
      }
      s
  }

  /** Printing a positive number and parsing it back gives the number. */
  lemma ParseDecimal(n: nat)
    requires n >= 1
    ensures Parse(Decimal(n)) == Some(n)
  {
  }

  /** Every accepted string is the canonical decimal of its value: the pattern
      admits exactly one spelling per number. */
  lemma DecimalParse(s: string)
    requires Matches(s)
    ensures Parse(s).Some? && Decimal(Parse(s).value) == s
  {
    DecimalOfDigits(s);
  }

  /** Printing the value of a match gives the match back, by induction on its
      length: the last digit is the remainder modulo ten. */
  lemma {:induction false} DecimalOfDigits(s: string)
    requires Matches(s)
    ensures Decimal(DigitsValue(s)) == s
    decreases |s|
  {
    if |s| == 1 {
      DecimalOfDigit(s[0]);
    } else {
      var init := s[..|s| - 1];
      MatchesInit(s);
      DecimalOfDigits(init);
      SplitLast(s);
      PrintAppend(DigitsValue(s), DigitsValue(init), init, s[|s| - 1]);
    }
  }

  lemma SplitLast(s: string)
    requires |s| >= 1
    ensures s == s[..|s| - 1] + [s[|s| - 1]]
  {
  }

  /** Printing `10 a + d` appends the digit `d` to the printing of `a`. */
  lemma PrintAppend(n: nat, a: nat, init: string, c: char)
    requires a >= 1 && Decimal(a) == init
    requires IsDigit(c) && n == a * 10 + DigitValue(c)
    ensures Decimal(n) == init + [c]
  {
    DecimalStep(n, a, DigitValue(c));
  }

  lemma DecimalOfDigit(c: char)
    requires '1' <= c <= '9'
    ensures DigitsValue([c]) == DigitValue(c) && Decimal(DigitValue(c)) == [c]
  {
  }

  /** Dropping the last digit of a longer match leaves a match. */
  lemma MatchesInit(s: string)
    requires Matches(s) && |s| >= 2
    ensures Matches(s[..|s| - 1])
    ensures DigitsValue(s) == DigitsValue(s[..|s| - 1]) * 10 + DigitValue(s[|s| - 1])
  {
    var init := s[..|s| - 1];
    assert init[0] == s[0];
    forall i | 0 <= i < |init| ensures IsDigit(init[i]) {
      assert init[i] == s[i];
    }
  }

  /** Appending a digit to the printing of `a` prints `10 a + d`. */
  lemma DecimalStep(n: nat, a: nat, d: nat)
    requires a >= 1 && d <= 9 && n == a * 10 + d
    ensures Decimal(n) == Decimal(a) + [DigitChar(d)]
  {
    assert n / 10 == a && n % 10 == d;
  }

  /** Strings the pattern refuses, and one it accepts. */
  lemma ParseExamples()
    ensures Parse("") == None
    ensures Parse("0") == None
    ensures Parse("01") == None
    ensures Parse("-3") == None
    ensures Parse("abc") == None
    ensures Parse("5") == Some(5)
    ensures Parse("25") == Some(25)
  {
    assert DigitsValue("5") == 5;
    assert "25"[..1] == "2";
    assert DigitsValue("25") == 25;
  }
}

=== FILE: outcomes.dfy ===
/** Tagged outcomes that replace the exceptions of the location service.

    Every operation of the service either produces a value or raises one of a
    small set of exceptions; here the exception becomes a `Fault` value carried
    by `Failure`, and each catch block becomes a match on the fault.
 */
module Outcomes {

  datatype Option<+T> = None | Some(value: T)

  /** The exceptions the service raises or lets through. */
  datatype Fault =
    /** `LocationNotFoundException(id)`, raised by the store */
    | LocationNotFound(id: string)
    /** `LocationLookupException(reason)`, raised by the geocoding client */
    | LocationLookup(reason: string)
    /** the engine's refusal of a conditioned write that the store does not translate */
    | ConditionalCheckFailed
    /** any other exception (a type error on a malformed request, an engine fault) */
    | Unexpected(what: string)

  datatype Result<+T> = Success(value: T) | Failure(fault: Fault)

  const LookupPrefix: string := "failed to lookup location: "

  /** The `message` of the exception a fault stands for. */
  function Message(f: Fault): (m: string)
    ensures f.LocationLookup? ==>
      |m| == |LookupPrefix| + |f.reason| && m[..|LookupPrefix|] == LookupPrefix && m[|LookupPrefix|..] == f.reason
  {
    match f
    case LocationNotFound(id) => "location '" + id + "' not found"
    case LocationLookup(reason) => LookupPrefix + reason
    case ConditionalCheckFailed => "The conditional request failed"
    case Unexpected(what) => what
  }

  /** Distinct missing ids give distinct not-found messages: the message names the id. */
  lemma NotFoundMessageNamesId(a: string, b: string)
    requires Message(LocationNotFound(a)) == Message(LocationNotFound(b))
    ensures a == b
  {
    var ma, mb := Message(LocationNotFound(a)), Message(LocationNotFound(b));
    assert |a| == |b| by { assert |ma| == |a| + 21 && |mb| == |b| + 21; }
    assert a == ma[10..10 + |a|];
    assert b == mb[10..10 + |b|];
  }

  /** Distinct reasons give distinct lookup-failure messages: the message
      carries the reason unchanged. */
  lemma LookupMessageNamesReason(a: string, b: string)
    requires Message(LocationLookup(a)) == Message(LocationLookup(b))
    ensures a == b
  {
    var ma, mb := Message(LocationLookup(a)), Message(LocationLookup(b));
    assert a == ma[|LookupPrefix|..] && b == mb[|LookupPrefix|..];
  }

  /** A lookup-failure message (the 400 body) never reads as a not-found
      message (the 404 body): the two start differently. */
  lemma LookupMessageIsNotNotFound(reason: string, id: string)
    ensures Message(LocationLookup(reason)) != Message(LocationNotFound(id))
  {
    assert Message(LocationLookup(reason))[0] == 'f';
    assert Message(LocationNotFound(id))[0] == 'l';
  }
}

=== FILE: paging.dfy ===
/** Chained listing: start a scan with no cursor, feed each returned cursor into
    the next call, and stop when no cursor comes back. Over an unchanged table
    this enumerates every stored record exactly once, in scan order, whatever
    the page limit.
 */
module Paging {
  import opened Outcomes
  import opened KeyOrder
  import opened Locations
  import opened Store

  /** Resuming after a page's cursor starts right behind that page. */
  lemma NextStart(t: Table, cursor: Option<string>, limit: nat)
    requires Valid(t) && limit >= 1
    requires GetLocations(t, cursor, Some(limit)).next.Some?
    ensures var p := GetLocations(t, cursor, Some(limit));
      Start(t, p.next) == Start(t, cursor) + |p.locations|
  {
    var start := Start(t, cursor);
    var p := GetLocations(t, cursor, Some(limit));
    var n := |p.locations|;
    assert p.next.value == t.order[start + n - 1];
    SkipToElement(t.order, start + n - 1);
  }

  /** The pages of a chained listing that starts from `cursor`. */
  function Paginate(t: Table, cursor: Option<string>, limit: nat): (pages: seq<Page>)
    requires Valid(t) && limit >= 1
    ensures |pages| >= 1
    ensures pages[|pages| - 1].next.None?
    decreases |t.order| - Start(t, cursor)
  {
    var p := GetLocations(t, cursor, Some(limit));
    if p.next.None? then [p]
    else
      NextStart(t, cursor, limit);
      var rest := Paginate(t, p.next, limit);
      LastOfCons(p, rest, [p] + rest);
      [p] + rest
  }

  /** One step of a chained listing: its first page, then the listing from
      that page's cursor, which starts strictly further on. */
  lemma PaginateStep(t: Table, cursor: Option<string>, limit: nat)
    requires Valid(t) && limit >= 1
    ensures var p := GetLocations(t, cursor, Some(limit));
      && (p.next.None? ==> Paginate(t, cursor, limit) == [p])
      && (p.next.Some? ==>
            && Start(t, p.next) == Start(t, cursor) + |p.locations| > Start(t, cursor)
            && Paginate(t, cursor, limit) == [p] + Paginate(t, p.next, limit))
  {
    if GetLocations(t, cursor, Some(limit)).next.Some? {
      NextStart(t, cursor, limit);
    }
  }

  lemma LastOfCons(p: Page, rest: seq<Page>, pages: seq<Page>)
    requires pages == [p] + rest && |rest| >= 1
    ensures pages[|pages| - 1] == rest[|rest| - 1]
  {
  }

  /** Every page of a chained listing but the last carries a cursor and is full. */
  lemma {:induction false} EarlierPagesAreFull(t: Table, cursor: Option<string>, limit: nat)
    requires Valid(t) && limit >= 1
    ensures var pages := Paginate(t, cursor, limit);
      forall i :: 0 <= i < |pages| - 1 ==> pages[i].next.Some? && |pages[i].locations| == limit
    decreases |t.order| - Start(t, cursor)
  {
    var p := GetLocations(t, cursor, Some(limit));
    PaginateStep(t, cursor, limit);
    if p.next.Some? {
      EarlierPagesAreFull(t, p.next, limit);
      var rest := Paginate(t, p.next, limit);
      var pages := [p] + rest;
      forall i | 0 < i < |pages| - 1 ensures pages[i] == rest[i - 1] { }
    }
  }

  /** Every page of a chained listing but the last is full and carries a
      cursor; the last carries none. */
  lemma CursorOnEveryPageButLast(t: Table, cursor: Option<string>, limit: nat)
    requires Valid(t) && limit >= 1
    ensures var pages := Paginate(t, cursor, limit);
      && pages[|pages| - 1].next.None?
      && forall i :: 0 <= i < |pages| - 1 ==> pages[i].next.Some? && |pages[i].locations| == limit
  {
    EarlierPagesAreFull(t, cursor, limit);
  }

  /** All records of a sequence of pages, page after page. */
  function Flatten(pages: seq<Page>): seq<Location>
  {
    if |pages| == 0 then [] else pages[0].locations + Flatten(pages[1..])
  }

  lemma RecordsAppend(t: Table, a: seq<string>, b: seq<string>)
    requires Valid(t) && (forall k :: k in a ==> k in t.items) && (forall k :: k in b ==> k in t.items)
    ensures Records(t, a + b) == Records(t, a) + Records(t, b)
  {
    RecordsAt(t, a + b);
    RecordsAt(t, a);
    RecordsAt(t, b);
    var l, r := Records(t, a + b), Records(t, a) + Records(t, b);
    forall i | 0 <= i < |l| ensures l[i] == r[i] {
      if i < |a| {
        assert r[i] == Records(t, a)[i];
      } else {
        assert r[i] == Records(t, b)[i - |a|];
      }
    }
  }

  /** A listing's page holds the records of the next window of the scan order. */
  lemma ListingWindow(t: Table, cursor: Option<string>, limit: nat)
    requires Valid(t) && limit >= 1
    ensures var start, p := Start(t, cursor), GetLocations(t, cursor, Some(limit));
      && start + |p.locations| <= |t.order|
      && p.locations == Records(t, t.order[start..start + |p.locations|])
      && (p.next.None? <==> start + |p.locations| == |t.order|)
  {
  }

  lemma FlattenCons(p: Page, pages: seq<Page>)
    ensures Flatten([p] + pages) == p.locations + Flatten(pages)
  {
    assert ([p] + pages)[1..] == pages;
  }

  /** The records from `start` on are the `n` records from `start`, then the
      records after those; the three are returned as `front`, `back`, `whole`. */
  lemma RecordsSplit(t: Table, start: nat, n: nat) returns (front: seq<Location>, back: seq<Location>, whole: seq<Location>)
    requires Valid(t) && start + n <= |t.order|
    ensures front == Records(t, t.order[start..start + n])
    ensures back == Records(t, t.order[start + n..])
    ensures whole == Records(t, t.order[start..])
    ensures whole == front + back
  {
    assert t.order[start..] == t.order[start..start + n] + t.order[start + n..];
    RecordsAppend(t, t.order[start..start + n], t.order[start + n..]);
    front, back, whole := Records(t, t.order[start..start + n]), Records(t, t.order[start + n..]), Records(t, t.order[start..]);
  }

  /** One step of the coverage proof: if the listing from a page's cursor
      returns the records from there on, the listing from `cursor` returns the
      records from `cursor` on. */
  lemma CoversStep(t: Table, cursor: Option<string>, limit: nat)
    requires Valid(t) && limit >= 1
    requires GetLocations(t, cursor, Some(limit)).next.Some?
    requires var next := GetLocations(t, cursor, Some(limit)).next;
      Flatten(Paginate(t, next, limit)) == Records(t, t.order[Start(t, next)..])
    ensures Flatten(Paginate(t, cursor, limit)) == Records(t, t.order[Start(t, cursor)..])
  {
    var start := Start(t, cursor);
    var p := GetLocations(t, cursor, Some(limit));
    var n := |p.locations|;
    ListingWindow(t, cursor, limit);
    PaginateStep(t, cursor, limit);
    var rest := Paginate(t, p.next, limit);
    var front, back, whole := RecordsSplit(t, start, n);
    JoinCover(Paginate(t, cursor, limit), p, rest, front, back, whole);
  }

  /** A first page holding `a`, followed by pages holding `b`, hold `a + b`. */
  lemma JoinCover(pages: seq<Page>, p: Page, rest: seq<Page>, a: seq<Location>, b: seq<Location>, whole: seq<Location>)
    requires pages == [p] + rest && p.locations == a && Flatten(rest) == b && whole == a + b
    ensures Flatten(pages) == whole
  {
    FlattenCons(p, rest);
  }

  /** A chained listing from `cursor` returns exactly the records after
      `cursor`, in scan order. */
  lemma {:induction false} PaginateCovers(t: Table, cursor: Option<string>, limit: nat)
    requires Valid(t) && limit >= 1
    ensures Flatten(Paginate(t, cursor, limit)) == Records(t, t.order[Start(t, cursor)..])
    decreases |t.order| - Start(t, cursor)
  {
    var p := GetLocations(t, cursor, Some(limit));
    PaginateStep(t, cursor, limit);
    if p.next.None? {
      ListingWindow(t, cursor, limit);
      assert Flatten([p]) == p.locations + Flatten([]);
    } else {
      PaginateCovers(t, p.next, limit);
      CoversStep(t, cursor, limit);
    }
  }

  /** Paging from no cursor enumerates every stored record exactly once: every
      stored id appears, no id appears twice, and each record is the stored one. */
  lemma EnumeratesEveryRecordOnce(t: Table, limit: nat)
    requires Valid(t) && limit >= 1
    ensures var all := Flatten(Paginate(t, None, limit));
      && (forall k :: k in t.items <==> k in Ids(all))
      && (forall i, j :: 0 <= i < j < |all| ==> all[i].id != all[j].id)
      && (forall i :: 0 <= i < |all| ==> ToAttributes(all[i]) == t.items[all[i].id])
  {
    PaginateCovers(t, None, limit);
    var all := Flatten(Paginate(t, None, limit));
    assert t.order[0..] == t.order;
    RecordsAt(t, t.order);
    RecordsIds(t, t.order);
    forall i, j | 0 <= i < j < |all| ensures all[i].id != all[j].id {
      SortedDistinct(t.order, i, j);
    }
  }

  /** The page sizes a chained listing of `n` records with page limit `limit` must have. */
  function Sizes(n: nat, limit: nat): seq<nat>
    requires limit >= 1
    decreases n
  {
    if n <= limit then [n] else [limit] + Sizes(n - limit, limit)
  }

  function SizesOf(pages: seq<Page>): seq<nat> {
    if |pages| == 0 then [] else [|pages[0].locations|] + SizesOf(pages[1..])
  }

  /** Every page but the last is full, and the last holds the remainder. */
  lemma {:induction false} PageSizes(t: Table, cursor: Option<string>, limit: nat)
    requires Valid(t) && limit >= 1
    ensures SizesOf(Paginate(t, cursor, limit)) == Sizes(|t.order| - Start(t, cursor), limit)
    decreases |t.order| - Start(t, cursor)
  {
    var p := GetLocations(t, cursor, Some(limit));
    PaginateStep(t, cursor, limit);
    if p.next.Some? {
      PageSizes(t, p.next, limit);
      PageSizesStep(t, cursor, limit);
    }
  }

  /** The step of `PageSizes`: a full first page followed by the sizes of the
      listing from its cursor. */
  lemma PageSizesStep(t: Table, cursor: Option<string>, limit: nat)
    requires Valid(t) && limit >= 1
    requires GetLocations(t, cursor, Some(limit)).next.Some?
    requires var next := GetLocations(t, cursor, Some(limit)).next;
      SizesOf(Paginate(t, next, limit)) == Sizes(|t.order| - Start(t, next), limit)
    ensures SizesOf(Paginate(t, cursor, limit)) == Sizes(|t.order| - Start(t, cursor), limit)
  {
    var p := GetLocations(t, cursor, Some(limit));
    var m := |t.order| - Start(t, cursor);
    PaginateStep(t, cursor, limit);
    CursorLeavesRecords(t, cursor, Some(limit));
    assert m > limit && Sizes(m, limit) == [limit] + Sizes(m - limit, limit);
    SizesOfCons(p, Paginate(t, p.next, limit));
  }

  lemma SizesOfCons(p: Page, rest: seq<Page>)
    ensures SizesOf([p] + rest) == [|p.locations|] + SizesOf(rest)
  {
    assert ([p] + rest)[1..] == rest;
  }

  /** The scan order lists each stored id once, so its length is the number of records. */
  lemma OrderCountsRecords(t: Table)
    requires Valid(t)
    ensures |t.order| == |t.items|
  {
    forall i, j | 0 <= i < j < |t.order| ensures t.order[i] != t.order[j] {
      SortedDistinct(t.order, i, j);
    }
    DistinctCount(t.order);
    assert t.items.Keys == set k | k in t.order;
  }

  lemma {:induction false} DistinctCount(s: seq<string>)
    requires forall i, j :: 0 <= i < j < |s| ==> s[i] != s[j]
    ensures |set k | k in s| == |s|
  {
    if |s| > 0 {
      var r := s[1..];
      assert forall i, j :: 0 <= i < j < |r| ==> r[i] != r[j] by {
        forall i, j | 0 <= i < j < |r| ensures r[i] != r[j] {
          assert r[i] == s[i + 1] && r[j] == s[j + 1];
        }
      }
      DistinctCount(r);
      assert (set k | k in s) == {s[0]} + set k | k in r by {
        assert s == [s[0]] + r;
      }
      assert s[0] !in r;
    }
  }
}

=== FILE: scenarios.dfy ===
/** Request sequences of the service's end-to-end tests, stated over any
    valid store: what one request writes, the next one reads.
 */
module Scenarios {
  import opened Outcomes
  import opened KeyOrder
  import opened Locations
  import opened Store
  import opened Paging
  import opened Handlers

  function PostRequest(body: Object): Request {
    Request("/locations", "POST", None, Query(None, None), Some(body))
  }

  function ByIdRequest(verb: string, id: string): Request {
    Request("/locations/{id}", verb, Some(id), Query(None, None), None)
  }

  function ListRequest(maxLocations: Option<string>, token: Option<string>): Request {
    Request("/locations", "GET", None, Query(maxLocations, token), None)
  }

  /** The upper-case methods the tests send reach the intended handlers. */
  lemma TestRoutes()
    ensures RouteOf("/locations", Lower("GET")) == Some(ListLocations)
    ensures RouteOf("/locations", Lower("POST")) == Some(PostLocation)
    ensures RouteOf("/locations/{id}", Lower("GET")) == Some(GetLocationById)
    ensures RouteOf("/locations/{id}", Lower("PUT")) == Some(PutLocationById)
    ensures RouteOf("/locations/{id}", Lower("DELETE")) == Some(DeleteLocationById)
  {
    assert Lower("GET") == "get";
    assert Lower("POST") == "post";
    assert Lower("PUT") == "put";
    assert Lower("DELETE") == "delete";
  }

  /** A created record is read back unchanged under its fresh id. */
  lemma PostThenGet(t: Table, body: Object, freshId: string, lookup: Lookup)
    requires Valid(t) && freshId !in t.items
    requires BodyInput(body).Some? && lookup(BodyInput(body).value).Success?
    ensures var (created, t1) := Dispatch(t, PostRequest(body), freshId, lookup);
      && created.statusCode == Ok
      && created.body.Record?
      && created.body.location.id == freshId
      && Dispatch(t1, ByIdRequest("GET", freshId), freshId, lookup) == (created, t1)
  {
    TestRoutes();
    var h := Post(t, Some(body), freshId, lookup);
    assert Dispatch(t, PostRequest(body), freshId, lookup) == (h.0.value, h.1);
    assert Dispatch(h.1, ByIdRequest("GET", freshId), freshId, lookup) == (Get(h.1, Some(freshId)).0.value, h.1);
  }

  /** A deleted record is gone: reading it is answered with 404. */
  lemma DeleteThenGet(t: Table, id: string, freshId: string, lookup: Lookup)
    requires Valid(t) && id in t.items
    ensures var (deleted, t1) := Dispatch(t, ByIdRequest("DELETE", id), freshId, lookup);
      && deleted == Response(NoContent, NoBody)
      && Dispatch(t1, ByIdRequest("GET", id), freshId, lookup).0 ==
           Response(NotFound, ErrorMessage("location '" + id + "' not found"))
  {
    TestRoutes();
  }

  /** Reading, replacing or deleting an id that no record has is answered with
      404 and changes nothing (a replacement only once its lookup succeeded). */
  lemma UnknownIdIsNotFound(t: Table, id: string, body: Object, freshId: string, lookup: Lookup)
    requires Valid(t) && id !in t.items
    requires BodyInput(body).Some? && lookup(BodyInput(body).value).Success?
    ensures var notFound := Response(NotFound, ErrorMessage("location '" + id + "' not found"));
      && Dispatch(t, ByIdRequest("GET", id), freshId, lookup) == (notFound, t)
      && Dispatch(t, ByIdRequest("DELETE", id), freshId, lookup) == (notFound, t)
      && Dispatch(t, ByIdRequest("PUT", id).(body := Some(body)), freshId, lookup) == (notFound, t)
  {
    TestRoutes();
  }

  /** A listing request with `maxLocations` of "3" answers with the page a scan
      limited to three records returns. */
  lemma ListingOfThree(t: Table, token: Option<string>, freshId: string, lookup: Lookup)
    requires Valid(t)
    ensures var p := GetLocations(t, token, Some(3));
      Dispatch(t, ListRequest(Some("3"), token), freshId, lookup) == (Response(Ok, Listing(p.locations, p.next)), t)
  {
    TestRoutes();
    MaxLocations.ParseExamples();
    MaxLocations.ParseDecimal(3);
    assert MaxLocations.Decimal(3) == "3";
  }

  /** Every test starts from a truncated table: it is valid, and a listing of
      it, with any accepted limit or none, returns no records and no cursor. */
  lemma EmptyTableListsNothing(maxLocations: Option<string>, token: Option<string>, freshId: string, lookup: Lookup)
    requires maxLocations.Some? ==> MaxLocations.Matches(maxLocations.value)
    ensures Valid(EmptyTable)
    ensures Dispatch(EmptyTable, ListRequest(maxLocations, token), freshId, lookup) == (Response(Ok, Listing([], None)), EmptyTable)
  {
    EmptyTableValid();
    TestRoutes();
  }

  /** Ten records listed three at a time come in pages of 3, 3, 3 and 1, with a
      cursor on each page but the last, and together they are every record. */
  lemma TenRecordsInPagesOfThree(t: Table)
    requires Valid(t) && |t.items| == 10
    ensures var pages := Paginate(t, None, 3);
      && SizesOf(pages) == [3, 3, 3, 1]
      && |pages| == 4
      && pages[0].next.Some? && pages[1].next.Some? && pages[2].next.Some? && pages[3].next.None?
  {
    OrderCountsRecords(t);
    PageSizes(t, None, 3);
    assert Sizes(1, 3) == [1];
    assert Sizes(4, 3) == [3, 1];
    assert Sizes(7, 3) == [3, 3, 1];
    assert Sizes(10, 3) == [3, 3, 3, 1];
    SizesOfLength(Paginate(t, None, 3));
    CursorOnEveryPageButLast(t, None, 3);
  }

  lemma {:induction false} SizesOfLength(pages: seq<Page>)
    ensures |SizesOf(pages)| == |pages|
  {
    if |pages| > 0 {
      SizesOfLength(pages[1..]);
    }
  }

  /** After deleting one of two records, an unlimited listing returns just the
      other one and no cursor. */
  lemma DeleteOneOfTwo(t: Table, a: string, b: string, freshId: string, lookup: Lookup)
    requires Valid(t) && t.items.Keys == {a, b} && a != b
    ensures var (_, t1) := Dispatch(t, ByIdRequest("DELETE", a), freshId, lookup);
      Dispatch(t1, ListRequest(None, None), freshId, lookup).0 ==
        Response(Ok, Listing([Stored(t, b)], None))
  {
    TestRoutes();
    var (_, t1) := Dispatch(t, ByIdRequest("DELETE", a), freshId, lookup);
    assert t1 == Delete(t, Some(a)).1;
    assert t1.items.Keys == {b};
    OrderCountsRecords(t1);
    assert b in t1.order;
    assert t1.order == [b];
    var p := GetLocations(t1, None, None);
    RecordsAt(t1, t1.order);
    RecordsIds(t1, t1.order);
    assert t1.order[0..1] == [b];
  }
}

=== FILE: store.dfy ===
/** The location store: a key-value table keyed on `id`.

    The table is a map from id to the stored item (the record's attribute map)
    together with the engine's scan order, a strictly increasing sequence of the
    stored ids. Each write is one conditioned operation: create succeeds only on
    an absent id, put and delete only on a present one; a refused write changes
    nothing. Listing is a scan that resumes strictly after an exclusive start key.
 */
module Store {
  import opened Outcomes
  import opened KeyOrder
  import opened Locations

  /** A stored attribute: a string (`S`) or a number (`N`). */
  datatype AttributeValue = S(s: string) | N(n: Coord)
  type Item = map<string, AttributeValue>

  /** The attribute names a stored record has. */
  const AttributeNames: set<string> := {"id", "state", "country", "name", "city", "latitude", "longitude"}

  /** The item written for a record. */
  function ToAttributes(l: Location): (item: Item)
    ensures item.Keys == AttributeNames
  {
    map["id" := S(l.id), "state" := S(l.state), "country" := S(l.country), "name" := S(l.name),
        "city" := S(l.city), "latitude" := N(l.latitude), "longitude" := N(l.longitude)]
  }

  /** `item` agrees with the item written for `l` on every attribute name. */
  predicate Agrees(item: Item, l: Location) {
    forall a :: a in AttributeNames ==> a in item && item[a] == ToAttributes(l)[a]
  }

  /** The record read from an item: the one record whose written item the item
      agrees with on every attribute name, and `None` when there is none (an
      attribute is missing or of the wrong kind). Attributes beyond the seven
      are ignored. */
  function FromAttributes(item: Item): (r: Option<Location>)
    ensures r.Some? ==> Agrees(item, r.value)
  {
    if && "id" in item && item["id"].S? && "name" in item && item["name"].S?
       && "country" in item && item["country"].S? && "state" in item && item["state"].S?
       && "city" in item && item["city"].S?
       && "latitude" in item && item["latitude"].N? && "longitude" in item && item["longitude"].N?
    then Some(Location(item["id"].s, item["name"].s, item["city"].s, item["state"].s, item["country"].s,
                       item["latitude"].n, item["longitude"].n))
    else None
  }

  /** An item reads as every record whose written item it agrees with: so at
      most one record agrees with an item, and an item that reads as nothing
      agrees with none. */
  lemma FromAttributesUnique(item: Item, l: Location)
    requires Agrees(item, l)
    ensures FromAttributes(item) == Some(l)
  {
    assert item["id"] == S(l.id) && item["name"] == S(l.name) && item["city"] == S(l.city);
    assert item["state"] == S(l.state) && item["country"] == S(l.country);
    assert item["latitude"] == N(l.latitude) && item["longitude"] == N(l.longitude);
  }

  /** Reading back the item written for a record gives the record. */
  lemma AttributesRoundTrip(l: Location)
    ensures FromAttributes(ToAttributes(l)) == Some(l)
  {
  }

  /** What create and put write is a valid item for the record's own id. */
  lemma WrittenItemHolds(l: Location)
    ensures Holds(ToAttributes(l), l.id)
  {
    AttributesRoundTrip(l);
  }

  datatype Table = Table(items: map<string, Item>, order: seq<string>)

  /** `item` is the item written for a record with key `id`. */
  predicate Holds(item: Item, id: string) {
    && FromAttributes(item).Some?
    && FromAttributes(item).value.id == id
    && ToAttributes(FromAttributes(item).value) == item
  }

  /** The representation invariant: the scan order lists exactly the stored
      ids, strictly increasing, and each item is a record stored under its own id. */
  ghost predicate Valid(t: Table) {
    && Sorted(t.order)
    && (forall k :: k in t.order <==> k in t.items)
    && (forall k {:trigger Holds(t.items[k], k)} :: k in t.items ==> Holds(t.items[k], k))
  }

  const EmptyTable: Table := Table(map[], [])

  lemma EmptyTableValid()
    ensures Valid(EmptyTable)
  {
  }

  /** The record stored under `id`. */
  function Stored(t: Table, id: string): (l: Location)
    requires Valid(t) && id in t.items
    ensures l.id == id && ToAttributes(l) == t.items[id]
  {
    assert Holds(t.items[id], id);
    FromAttributes(t.items[id]).value
  }

  /** `t'` agrees with `t` on every id other than `id`. */
  ghost predicate SameElsewhere(t: Table, t': Table, id: string) {
    forall k :: k != id ==>
      && (k in t'.items <==> k in t.items)
      && (k in t.items ==> t'.items[k] == t.items[k])
  }

  /** `createLocation`: a put conditioned on `attribute_not_exists(id)`. The
      engine's refusal is not translated and surfaces as `ConditionalCheckFailed`. */
  function CreateLocation(t: Table, loc: Location): (r: (Result<Location>, Table))
    requires Valid(t)
    ensures Valid(r.1)
    ensures loc.id !in t.items ==>
      && r.0 == Success(loc)
      && loc.id in r.1.items && Stored(r.1, loc.id) == loc
      && SameElsewhere(t, r.1, loc.id)
    ensures loc.id in t.items ==> r.0 == Failure(ConditionalCheckFailed) && r.1 == t
  {
    if loc.id in t.items then (Failure(ConditionalCheckFailed), t)
    else
      WrittenItemHolds(loc);
      AttributesRoundTrip(loc);
      var t' := Table(t.items[loc.id := ToAttributes(loc)], Insert(t.order, loc.id));
      (Success(loc), t')
  }

  /** `getLocation`: the stored record, or `LocationNotFound`. */
  function GetLocation(t: Table, id: string): (r: Result<Location>)
    requires Valid(t)
    ensures r.Success? <==> id in t.items
    ensures r.Success? ==> r.value.id == id && ToAttributes(r.value) == t.items[id]
    ensures r.Failure? ==>
      && r.fault == LocationNotFound(id)
      && Message(r.fault) == "location '" + id + "' not found"
  {
    if id in t.items then Success(Stored(t, id)) else Failure(LocationNotFound(id))
  }

  /** `putLocation`: a put conditioned on `attribute_exists(id)`, whose refusal
      becomes `LocationNotFound`; it never inserts. */
  function PutLocation(t: Table, loc: Location): (r: (Result<Location>, Table))
    requires Valid(t)
    ensures Valid(r.1)
    ensures loc.id in t.items ==>
      && r.0 == Success(loc)
      && loc.id in r.1.items && Stored(r.1, loc.id) == loc
      && SameElsewhere(t, r.1, loc.id)
      && r.1.order == t.order
    ensures loc.id !in t.items ==> r.0 == Failure(LocationNotFound(loc.id)) && r.1 == t
  {
    if loc.id !in t.items then (Failure(LocationNotFound(loc.id)), t)
    else
      WrittenItemHolds(loc);
      AttributesRoundTrip(loc);
      (Success(loc), Table(t.items[loc.id := ToAttributes(loc)], t.order))
  }

  /** `deleteLocation`: a delete conditioned on `attribute_exists(id)`, whose
      refusal becomes `LocationNotFound`. */
  function DeleteLocation(t: Table, id: string): (r: (Result<()>, Table))
    requires Valid(t)
    ensures Valid(r.1)
    ensures id in t.items ==> r.0 == Success(()) && id !in r.1.items && SameElsewhere(t, r.1, id)
    ensures id !in t.items ==> r.0 == Failure(LocationNotFound(id)) && r.1 == t
  {
    if id !in t.items then (Failure(LocationNotFound(id)), t)
    else (Success(()), Table(t.items - {id}, Remove(t.order, id)))
  }

  /** One page of a listing and the cursor to resume from, if any. */
  datatype Page = Page(locations: seq<Location>, next: Option<string>)

  /** Key `k` lies strictly after the exclusive start key `first` (every key does when there is none). */
  predicate After(first: Option<string>, k: string) {
    first.None? || Less(first.value, k)
  }

  function Ids(ls: seq<Location>): (ids: seq<string>)
    ensures |ids| == |ls| && forall i :: 0 <= i < |ls| ==> ids[i] == ls[i].id
  {
    seq(|ls|, i requires 0 <= i < |ls| => ls[i].id)
  }

  /** The position in scan order at which a scan with exclusive start key `first` begins. */
  function Start(t: Table, first: Option<string>): (i: nat)
    ensures i <= |t.order|
  {
    if first.None? then 0 else SkipTo(t.order, first.value)
  }

  /** The scan starts at the first key after `first`: the keys before the
      start are not after `first`, the keys from it on are. */
  lemma StartSplits(t: Table, first: Option<string>)
    requires Valid(t)
    ensures forall j :: 0 <= j < |t.order| ==> (Start(t, first) <= j <==> After(first, t.order[j]))
  {
    if first.Some? {
      SkipToSplits(t.order, first.value);
    }
  }

  /** The records under `ids`, in that order. */
  function Records(t: Table, ids: seq<string>): (ls: seq<Location>)
    requires Valid(t) && forall k :: k in ids ==> k in t.items
    ensures |ls| == |ids|
  {
    seq(|ids|, i requires 0 <= i < |ids| => Stored(t, ids[i]))
  }

  /** Each record of `Records(t, ids)` is the one stored under the matching id. */
  lemma RecordsAt(t: Table, ids: seq<string>)
    requires Valid(t) && forall k :: k in ids ==> k in t.items
    ensures var ls := Records(t, ids);
      forall i :: 0 <= i < |ls| ==> ls[i] == Stored(t, ids[i])
  {
  }

  /** The records of `Records(t, ids)` carry exactly the ids `ids`. */
  lemma RecordsIds(t: Table, ids: seq<string>)
    requires Valid(t) && forall k :: k in ids ==> k in t.items
    ensures Ids(Records(t, ids)) == ids
  {
    var ls := Records(t, ids);
    forall i | 0 <= i < |ls| ensures Ids(ls)[i] == ids[i] {
      assert ls[i] == Stored(t, ids[i]);
    }
  }

  /** The ids of a window of `n` records from position `start` of the scan order. */
  function Window(t: Table, start: nat, n: nat): (ids: seq<string>)
    requires Valid(t) && start + n <= |t.order|
    ensures |ids| == n && forall k :: k in ids ==> k in t.items
  {
    t.order[start..start + n]
  }

  /** The records of a window are stored records after `first`. */
  lemma WindowContents(t: Table, first: Option<string>, n: nat)
    requires Valid(t) && Start(t, first) + n <= |t.order|
    ensures var ls := Records(t, Window(t, Start(t, first), n));
      forall i :: 0 <= i < |ls| ==>
        && ls[i].id in t.items
        && ToAttributes(ls[i]) == t.items[ls[i].id]
        && After(first, ls[i].id)
  {
    var start := Start(t, first);
    StartSplits(t, first);
    var ls := Records(t, Window(t, start, n));
    RecordsAt(t, Window(t, start, n));
    RecordsIds(t, Window(t, start, n));
    forall i | 0 <= i < |ls|
      ensures ls[i].id in t.items && After(first, ls[i].id)
    {
      assert ls[i].id == Ids(ls)[i] == t.order[start + i];
    }
  }

  /** The records of a window are strictly increasing in scan order. */
  lemma WindowIncreasing(t: Table, start: nat, n: nat)
    requires Valid(t) && start + n <= |t.order|
    ensures var ls := Records(t, Window(t, start, n));
      forall i, j :: 0 <= i < j < |ls| ==> Less(ls[i].id, ls[j].id)
  {
    var ls := Records(t, Window(t, start, n));
    RecordsIds(t, Window(t, start, n));
    forall i, j | 0 <= i < j < |ls|
      ensures Less(ls[i].id, ls[j].id)
    {
      assert ls[i].id == Ids(ls)[i] == t.order[start + i];
      assert ls[j].id == Ids(ls)[j] == t.order[start + j];
    }
  }

  /** A window that starts where the scan after `first` starts and ends at
      `last` leaves out no stored key that is after `first` and not after `last`. */
  lemma WindowComplete(t: Table, first: Option<string>, n: nat, last: Option<string>)
    requires Valid(t) && Start(t, first) + n <= |t.order|
    requires last.None? ==> Start(t, first) + n == |t.order|
    requires last.Some? ==> n > 0 && last.value == t.order[Start(t, first) + n - 1]
    ensures forall k :: k in t.items && After(first, k) && (last.None? || !Less(last.value, k)) ==>
      k in Ids(Records(t, Window(t, Start(t, first), n)))
  {
    var start := Start(t, first);
    StartSplits(t, first);
    var ids := Window(t, start, n);
    RecordsIds(t, ids);
    forall k | k in t.items && After(first, k) && (last.None? || !Less(last.value, k))
      ensures k in ids
    {
      var j :| 0 <= j < |t.order| && t.order[j] == k;
      assert ids[j - start] == k;
    }
  }

  /** The key right after a window is stored, after `first`, and not in the window. */
  lemma WindowLeavesNext(t: Table, first: Option<string>, n: nat)
    requires Valid(t) && Start(t, first) + n < |t.order|
    ensures exists k :: k in t.items && After(first, k) && k !in Ids(Records(t, Window(t, Start(t, first), n)))
  {
    var start := Start(t, first);
    var ids := Window(t, start, n);
    RecordsIds(t, ids);
    var k := t.order[start + n];
    StartSplits(t, first);
    forall i | 0 <= i < n ensures ids[i] != k {
      SortedDistinct(t.order, start + i, start + n);
    }
    assert k in t.items && After(first, k) && k !in ids;
  }

  /** The number of records a scan from `start` returns under `limit`. */
  function PageLength(t: Table, start: nat, limit: Option<nat>): (n: nat)
    requires start <= |t.order|
    ensures start + n <= |t.order|
    ensures limit.Some? ==> n <= limit.value
    ensures start + n < |t.order| ==> limit.Some? && n == limit.value
  {
    if limit.Some? && start + limit.value < |t.order| then limit.value else |t.order| - start
  }

  /** `getLocations(first, limit)`: a scan from exclusive start key `first`
      returning at most `limit` records (all remaining ones when there is no
      limit). The cursor is the id of the last record returned, and is present
      exactly when stored records remain beyond the page; the lemmas below
      state which records the page holds. */
  function GetLocations(t: Table, first: Option<string>, limit: Option<nat>): (p: Page)
    requires Valid(t)
    requires limit.Some? ==> limit.value >= 1
    ensures limit.Some? ==> |p.locations| <= limit.value
    ensures p.next.Some? ==>
      && |p.locations| > 0
      && p.next.value == p.locations[|p.locations| - 1].id
      && limit == Some(|p.locations|)
  {
    var start := Start(t, first);
    var n := PageLength(t, start, limit);
    var page := Records(t, Window(t, start, n));
    if start + n < |t.order| then
      RecordsIds(t, Window(t, start, n));
      assert page[n - 1].id == Ids(page)[n - 1] == t.order[start + n - 1];
      Page(page, Some(t.order[start + n - 1]))
    else
      Page(page, None)
  }

  /** A cursor comes back only when stored records remain beyond the page. */
  lemma CursorLeavesRecords(t: Table, first: Option<string>, limit: Option<nat>)
    requires Valid(t)
    requires limit.Some? ==> limit.value >= 1
    ensures GetLocations(t, first, limit).next.Some? ==>
      Start(t, first) + |GetLocations(t, first, limit).locations| < |t.order|
  {
  }

  /** A listing returns stored records, each strictly after the cursor, in
      strictly increasing scan order (so never the same record twice). */
  lemma ListingReturnsStoredRecordsAfterCursor(t: Table, first: Option<string>, limit: Option<nat>)
    requires Valid(t)
    requires limit.Some? ==> limit.value >= 1
    ensures var p := GetLocations(t, first, limit);
      && (forall i :: 0 <= i < |p.locations| ==>
            && p.locations[i].id in t.items
            && ToAttributes(p.locations[i]) == t.items[p.locations[i].id]
            && After(first, p.locations[i].id))
      && (forall i, j :: 0 <= i < j < |p.locations| ==> Less(p.locations[i].id, p.locations[j].id))
  {
    var start := Start(t, first);
    WindowContents(t, first, PageLength(t, start, limit));
    WindowIncreasing(t, start, PageLength(t, start, limit));
  }

  /** A listing skips nothing: every stored record after the cursor and not
      after the returned cursor is in the page, and a cursor comes back exactly
      when some stored record after the cursor is not in the page. */
  lemma ListingSkipsNothing(t: Table, first: Option<string>, limit: Option<nat>)
    requires Valid(t)
    requires limit.Some? ==> limit.value >= 1
    ensures var p := GetLocations(t, first, limit);
      && (forall k :: k in t.items && After(first, k) && (p.next.None? || !Less(p.next.value, k)) ==>
            k in Ids(p.locations))
      && (p.next.Some? <==> exists k :: k in t.items && After(first, k) && k !in Ids(p.locations))
  {
    var start := Start(t, first);
    var n := PageLength(t, start, limit);
    var p := GetLocations(t, first, limit);
    WindowComplete(t, first, n, p.next);
    if start + n < |t.order| {
      WindowLeavesNext(t, first, n);
    }
  }
}
